=== FILE: README.md ===
# Merkato directory scraper — a Dafny model

This project models the core of the Merkato business-directory search. The
system has three parts.

- **Front end.** A directory page filters an in-memory list of listings. It keeps
  at most one result card expanded and offers quick-search tags. Each result card
  shortens its description, shows a gallery of at most six product images and
  shows a website link only when there is a real website.
- **Scraper.** The scraper for 2merkato.com normalises the site's "N/A"
  placeholder. It reads a company's fields from a parsed listing page and
  decides how many search pages there are. It collects the distinct listing
  links from the search pages and scrapes one record per link.
- **API.** The `/search` handler normalises the keyword and counts the request.
  It answers from the keyword cache when it can. Otherwise it scrapes at most
  three pages, caches the result and stores the companies it has not seen. The
  `/stats` handler reports the request total and the ten most searched keywords.
  Also modelled: the database module's rewrite of the Neon connection URL, and
  the stand-alone test endpoint with its mock scraper and counting save.

Modules, one per source file plus shared helpers:

| module | file | models |
|---|---|---|
| `Wrappers` | wrappers.dfy | `Option` and `Result` |
| `Text` | text.dfy | ASCII lowering, Python `strip`, substring search, decimal digits |
| `Seqs` | seqs.dfy | order-preserving subsequences |
| `DirectoryPage` | directory_page.dfy | app/page.tsx |
| `ResultItem` | result_item.dfy | app/components/SearchResultItem.tsx |
| `ScraperUrls` | scraper_urls.dfy | the URL templates, `urljoin` and `page:N` in api/utils/scrapper.py |
| `Scraper` | scraper.dfy | the rest of api/utils/scrapper.py |
| `Ranking` | ranking.dfy | the Redis sorted set read by `get_top_keywords` (api/cache/redis.py) |
| `SearchRoute` | search_route.dfy | api/routes/comp.py |
| `DatabaseUrl` | database_url.dfy | api/models/database.py |
| `MockSearch` | mock_search.dfy | api/tests/test.py |

The model works on parsed pages, not HTML. A listing page is a record of what
the CSS selectors found. A search page holds three things:
- the number captured by "Page x of N";
- the `href` of the "End" link;
- the `href`s of the result-title anchors.

HTTP is a pair of functions (`Scraper.Web`) that map a URL to a parsed page or a
client error. Redis and the database are explicit state (`SearchRoute.Backend`).
The concurrent `asyncio.gather` calls are modelled one after another, in the
same order. The
`/search` handler saves error records (`{url, error}`) like any other record:
`CompanyOf` builds them a row whose columns other than `url` are all NULL.

Two behaviours of the code are worth stating plainly:

- The front-end filter short-circuits only the empty term. A term of spaces is
  lower-cased and used to filter, so it keeps only entries whose name, category
  or location contains those spaces.
- A scraped `/search` answer is tagged `"database"`, although the front end's
  type allows only `'cache' | 'live'`.

## Model

| member | source | states |
|---|---|---|
| Text.Lower | app/page.tsx:125 | lowering keeps the length and maps each character through ASCII lower-casing |
| Text.LowerIdempotent | api/routes/comp.py:56 | lower-casing an already lowered string changes nothing |
| Text.TrimLeft | api/utils/scrapper.py:35 | the removed prefix is all whitespace, and what remains starts with non-whitespace |
| Text.TrimRight | api/utils/scrapper.py:35 | the removed suffix is all whitespace, and what remains ends with non-whitespace |
| Text.Strip | api/utils/scrapper.py:35 | `strip()` returns an infix of its input with only whitespace before and after it and no whitespace at either of its own ends |
| Text.StripUnique | api/utils/scrapper.py:35 | any infix with only whitespace around it and none at its own ends is the strip, so the result is the longest such infix |
| Text.StripKeeps | api/utils/scrapper.py:35 | a string with no whitespace at its ends is its own strip |
| Text.ContainsIff | app/page.tsx:128-130 | `includes` holds exactly when the needle occurs at some index |
| Text.DecimalRoundTrip | api/utils/scrapper.py:11 | the page number written into a URL reads back as the same number |
| DirectoryPage.KeepMatching | app/page.tsx:126-131 | keeps a subsequence whose multiplicities are those of the matching entries and zero for the rest |
| DirectoryPage.Filter | app/page.tsx:123-132 | the empty term yields the whole dataset; otherwise an entry stays exactly when its name, category or location contains the lowered term, with its multiplicity and order kept |
| DirectoryPage.FilterIdempotent | app/page.tsx:123-132 | filtering the filtered list again with the same term changes nothing |
| DirectoryPage.Toggle | app/page.tsx:134-136 | the result is empty exactly when the clicked url was the expanded one; otherwise the clicked url is expanded |
| DirectoryPage.ToggleLaws | app/page.tsx:134-136 | clicking the same card twice collapses it, and clicking another card expands only that one |
| DirectoryPage.ExpandedFlags | app/page.tsx:269 | a card renders expanded exactly when its url is the expanded id; with distinct urls at most one card is expanded |
| DirectoryPage.ActiveTags | app/page.tsx:248-249 | a chip is active exactly when the term equals its text, and no two chips are active together |
| DirectoryPage.ShowsClearChip | app/page.tsx:253 | the clear chip shows exactly when the term is non-empty |
| ResultItem.ClampLength | app/components/SearchResultItem.tsx:16 | the cut position is within the text and equals the requested length when that is in range |
| ResultItem.TruncateDescription | app/components/SearchResultItem.tsx:13-17 | empty stays empty; a text within the limit is unchanged; a longer one is a prefix of the limit's length followed by "..." |
| ResultItem.FirstSentence | app/components/SearchResultItem.tsx:24 | a prefix with no full stop, ending at the first full stop or at the end of the text |
| ResultItem.ShortDescription | app/components/SearchResultItem.tsx:20-31 | the placeholder for an empty text; a first sentence of at most 200 characters plus one full stop; otherwise the first 150 characters plus "..."; always non-empty, at most 201 characters and ending in a full stop |
| ResultItem.CardSummary | app/components/SearchResultItem.tsx:34 | a missing description gives the placeholder, and the summary ends with a full stop |
| ResultItem.GalleryImages | app/components/SearchResultItem.tsx:238 | the first min(6, n) product images, in order; none when the list is missing |
| ResultItem.WebsiteLink | app/components/SearchResultItem.tsx:174 | a link exists exactly when the website is present, non-empty and not "N/A", and it is that website |
| ScraperUrls.DigitRun | api/utils/scrapper.py:127 | the longest run of leading digits |
| ScraperUrls.PageNumberOfPaginatedUrl | api/utils/scrapper.py:11 | `page:(\d+)` on a paginated search URL gives back its page number, whatever the query |
| ScraperUrls.UrlJoinKeeps | api/utils/scrapper.py:143 | resolving a reference without dot segments against the site keeps any infix of it that has a `/` and no `:`, such as `/directory/` |
| ScraperUrls.UrlJoinWithScheme | api/utils/scrapper.py:48 | a reference `scheme:rest` is returned unchanged unless its scheme is `https` in some case, which is resolved from what follows the `:` |
| ScraperUrls.UrlJoinKeepsData | api/utils/scrapper.py:102 | every `data:` image source is kept as it is |
| ScraperUrls.PageUrls | api/utils/scrapper.py:178-181 | one URL per page 1..count in order: page 1 uses the plain template, later pages the paginated one |
| ScraperUrls.SearchUrlNotPaginated | api/utils/scrapper.py:180 | the first page's URL differs from every paginated URL |
| ScraperUrls.PageUrlDistinct | api/utils/scrapper.py:180 | different page numbers give different URLs |
| ScraperUrls.PageUrlsDistinct | api/utils/scrapper.py:178-181 | the page URL list never repeats a URL |
| Scraper.CleanNa | api/utils/scrapper.py:33-37 | the result is None exactly when the input is None or reads "n/a" after strip and lower; otherwise the input is returned unchanged |
| Scraper.NaIsNa | api/utils/scrapper.py:84 | the "N/A" placeholder itself cleans to None |
| Scraper.CleanNaIdempotent | api/utils/scrapper.py:33-37 | cleaning twice is cleaning once |
| Scraper.Pairs | api/utils/scrapper.py:56 | an order-preserving subsequence of the rows holding exactly the rows with two cells, each as often as it occurs among the rows |
| Scraper.OnlyPairsCount | api/utils/scrapper.py:54-56 | rows that do not have two cells do not affect the contacts |
| Scraper.ContactFoldSnoc | api/utils/scrapper.py:54 | the rows are processed one after another in document order |
| Scraper.StepPhone | api/utils/scrapper.py:59-60 | a row sets the phone only while it is "N/A", and only when its label contains "mobile" |
| Scraper.PhoneIsFirstMobile | api/utils/scrapper.py:59-60 | the phone is the value of the first mobile row whose value is not "N/A", and a found phone is never replaced |
| Scraper.LaterLocationOverwrites | api/utils/scrapper.py:61-62 | a later location row overwrites an earlier location |
| Scraper.LaterCategoryOverwrites | api/utils/scrapper.py:63-64 | a later primary-category row that the mobile and location branches did not take overwrites an earlier category with its link text, or its value when it has no link |
| Scraper.PhoneWithFooter | api/utils/scrapper.py:78-80 | the footer phone is used only when the table gave no phone |
| Scraper.ParseListing | api/utils/scrapper.py:39-112 | the url is kept; the name is the stripped heading or "N/A"; location and primary category are the cleaned table values; a table phone wins, else the stripped footer capture, else none; the logo is the resolved `src` when non-empty; description, website and stripped email are the cleaned page values; one resolved product URL per image, in order |
| Scraper.ScrapeDetails | api/utils/scrapper.py:157-166 | one record per link carrying that link; an error record exactly when the fetch failed, with its message |
| Scraper.TotalPages | api/utils/scrapper.py:114-133 | a client error gives 0; otherwise "Page x of N" wins, then the End link's `page:` number, then 1 |
| Scraper.TotalPagesFromEndLink | api/utils/scrapper.py:125-129 | an End link in the site's paginated template yields its page number as the total |
| Scraper.Dedup | api/utils/scrapper.py:137 | no element twice and the same elements as the input |
| Scraper.DirectoryLinks | api/utils/scrapper.py:140-143 | a link is collected exactly when some result-title anchor's `href` contains `/directory/` and resolves to it |
| Scraper.ExtractListingLinks | api/utils/scrapper.py:135-144 | distinct links, none without a result list, exactly the resolved directory anchors, each containing `/directory/` when the hrefs have no dot segments |
| Scraper.FetchLinks | api/utils/scrapper.py:146-155 | a failed fetch gives no links, a successful one the extracted links |
| Scraper.EffectivePageCount | api/utils/scrapper.py:175 | a missing or zero limit means the total; otherwise the smaller of total and limit |
| Scraper.CollectLinks | api/utils/scrapper.py:183-186 | a link is collected exactly when some page's fetch yields it |
| Scraper.CrawlLinks | api/utils/scrapper.py:170-188 | the distinct links found on the crawled pages, all of them and nothing else; each contains `/directory/` when the hrefs have no dot segments |
| Scraper.ScrapeAll | api/utils/scrapper.py:191-192 | one record per link, in link order, each the detail scrape of that link |
| Scraper.MainScraper | api/utils/scrapper.py:168-192 | no pages means no records; otherwise exactly one record per distinct link found on pages 1..effective count, each that link's detail scrape of a `/directory/` link when the hrefs have no dot segments |
| Ranking.StrLessIrreflexive | api/cache/redis.py:42 | the tie-break order on members is irreflexive |
| Ranking.StrLessTransitive | api/cache/redis.py:42 | the tie-break order on members is transitive |
| Ranking.StrLessTotal | api/cache/redis.py:42 | any two different members are ordered one way or the other |
| Ranking.ListedFirstTotal | api/cache/redis.py:42 | of two entries, one is listed no later than the other |
| Ranking.ListedFirstTransitive | api/cache/redis.py:42 | the listing order is transitive |
| Ranking.BestIndex | api/cache/redis.py:42 | the position of an entry listed no later than every other |
| Ranking.RemoveAt | api/cache/redis.py:42 | removing one entry removes exactly that entry from the multiset |
| Ranking.Top | api/cache/redis.py:41-43 | for a count n, min(n, size) entries taken from the ranking, as a sub-multiset of it |
| Ranking.RevRange | api/cache/redis.py:41-43 | `zrevrange(0, limit-1)`: min(limit, size) entries for a positive limit; for a non-positive limit the stop counts from the end, so 0 returns every entry and -k all but k; always a sub-multiset of the ranking |
| Ranking.RevRangeSorted | api/cache/redis.py:42 | the range comes out highest score first, ties by reverse lexicographic member |
| Ranking.RevRangeComplete | api/cache/redis.py:42 | every ranked entry left out of the range is listed after every entry returned |
| Ranking.TopMembers | api/cache/redis.py:41-43 | every top entry is an entry of the ranking |
| Ranking.SortedPairwise | api/cache/redis.py:42 | a sorted list orders every pair, not only neighbours |
| Ranking.TopSorted | api/cache/redis.py:42 | the top entries come out highest score first, ties by reverse lexicographic member |
| Ranking.TopComplete | api/cache/redis.py:42 | every ranked entry left out is listed after every entry returned |
| Ranking.Bump | api/cache/redis.py:33 | `zincrby(1, k)` raises k's score by one (from 0 for a new keyword) and leaves every other score alone |
| Ranking.BumpKeepsDistinct | api/cache/redis.py:33 | bumping adds the keyword to the ranked keywords and never lists one twice |
| SearchRoute.CompanyOf | api/routes/comp.py:38-49 | the row carries the record's url, and its name is NULL exactly for an error record |
| SearchRoute.SaveNewKeepsRows | api/routes/comp.py:27-52 | stored rows are never modified: the old table is a prefix of the new one |
| SearchRoute.SaveNewUrls | api/routes/comp.py:29-50 | afterwards the stored urls are the old ones plus every item's url |
| SearchRoute.SaveNewFresh | api/routes/comp.py:31-35 | every new row has a url not stored before, and no two new rows share a url |
| SearchRoute.SaveNewFromItems | api/routes/comp.py:38-50 | every new row is the row built from one of the items |
| SearchRoute.SaveKnownUnchanged | api/routes/comp.py:34-35 | saving items whose urls are all stored changes nothing |
| SearchRoute.SaveNewIdempotent | api/routes/comp.py:27-52 | saving the same batch twice stores nothing the first save did not |
| SearchRoute.Keyword | api/routes/comp.py:56 | the keyword is an infix of the lowered term with only whitespace around it and none at its own ends |
| SearchRoute.KeywordExample | api/routes/comp.py:56 | the term "  Bank " becomes the keyword "bank" |
| SearchRoute.KeywordLowercase | api/routes/comp.py:56 | the keyword contains no upper-case letter |
| SearchRoute.TakePrefix | api/routes/comp.py:67 | Python's `[:limit]` is a prefix: all of it for None, min(limit, n) entries for a non-negative limit, n + limit entries (at least 0) for a negative one |
| SearchRoute.CountRequest | api/routes/comp.py:60-61 | the total and the keyword's counter and score go up by one; nothing else changes |
| SearchRoute.Search | api/routes/comp.py:54-78 | counts the request: the total and the keyword's counter go up by one and the keyword's ranking is bumped; a truthy cache entry answers with source "cache" and changes neither cache nor table; otherwise scrapes at most three result pages, caches the scrape, saves new companies and answers with source "database"; at most `limit` results |
| SearchRoute.SearchKeepsCountersAgree | api/routes/comp.py:60-61 | a search keeps each keyword's ranking score equal to its search count |
| SearchRoute.RepeatSearchHitsCache | api/routes/comp.py:63-71 | after a miss that scraped something, the same keyword is answered from the cache with the same results and no new rows |
| SearchRoute.AsCounts | api/cache/redis.py:43 | each entry becomes a keyword and its count, in order |
| SearchRoute.TopCounts | api/cache/redis.py:41-43 | one keyword/count pair per entry of `zrevrange(0, limit-1)`, each an entry of the ranking |
| SearchRoute.RangeCountsOrdered | api/cache/redis.py:41-43 | the pairs' counts are non-increasing |
| SearchRoute.RangeCountsComplete | api/cache/redis.py:41-43 | no ranked entry left out of the range has a higher count than one listed |
| SearchRoute.StatsIsRange | api/routes/comp.py:86 | `/stats` reports exactly the pairs of `zrevrange(0, 9)` |
| SearchRoute.Stats | api/routes/comp.py:82-87 | reports the request total and min(10, size) ranked keywords with their scores |
| SearchRoute.StatsOrdered | api/routes/comp.py:86 | `/stats` lists counts in non-increasing order |
| SearchRoute.StatsComplete | api/routes/comp.py:86 | no ranked entry left out of the top ten has a higher count than one listed |
| SearchRoute.ScoreOfMember | api/cache/redis.py:33 | with distinct keywords, a ranked entry's score is its keyword's score |
| SearchRoute.StatsCountsAgree | api/routes/comp.py:86 | while the counters agree, each count `/stats` reports is the keyword's search count |
| DatabaseUrl.FilterParams | api/models/database.py:22-24 | keeps, in order, exactly the parameters whose lowered key is not `sslmode` or `channel_binding` |
| DatabaseUrl.FilterKeepsClean | api/models/database.py:22-24 | a query with no unwanted key is kept whole |
| DatabaseUrl.FilterIdempotent | api/models/database.py:22-24 | filtering twice equals filtering once |
| DatabaseUrl.RewriteUrl | api/models/database.py:11-32 | a missing or empty `NEON_URL` is the error; otherwise the scheme becomes `postgresql+asyncpg`, the other parts are kept and the query loses exactly its unwanted keys |
| DatabaseUrl.RewriteCleanUrl | api/models/database.py:17-32 | a URL without unwanted keys changes only its scheme |
| MockSearch.CountAbsent | api/tests/test.py:25-37 | the count of missing urls is at most the number of urls |
| MockSearch.CountAbsentAppend | api/tests/test.py:27-37 | the count over two batches is the sum of their counts |
| MockSearch.RepeatedBatchCountedTwice | api/tests/test.py:27-37 | the store is never written, so a batch scraped twice counts twice |
| MockSearch.CountAbsentAntitone | api/tests/test.py:35-37 | a larger store never raises the count |
| MockSearch.SaveCounting | api/tests/test.py:21-39 | status "success" and the number of scraped items whose url is not stored |
| MockSearch.MockScraper | api/tests/test.py:41-48 | two items with different urls for "insurances", nothing for any other keyword |
| MockSearch.SearchCompanies | api/tests/test.py:58-66 | echoes the keyword, reports the scraped count and the save result, and never reports more new records than scraped items |
| MockSearch.InsurancesCounts | api/tests/test.py:43-47 | against an empty store both mock items are new; with Phoenix stored only one is |
| MockSearch.CountBoundsSave | api/routes/comp.py:27-52 | the test's count bounds the rows the real save inserts |
| MockSearch.CountEqualsSave | api/tests/test.py:21-39 | with no url repeated in the batch, the test's count equals the rows the real save inserts |

## Left out

- HTML parsing with BeautifulSoup is not modelled: pages arrive as records of what the selectors found.
- A Python `set` of links is modelled as iterated in first-occurrence order. CPython's order depends on randomised string hashes, and it decides which records `[:limit]` returns (api/utils/scrapper.py:137, 184-192 and api/routes/comp.py:67); this is a modelling choice.
- The regular expressions for "Page x of N", `Email:-` and `Phone no:-` are inputs (their captures); only `page:(\d+)` is modelled, on the End link's `href`.
- `urljoin` is modelled for references with a scheme (kept unless it is `https`) and for scheme-relative, root-relative, query, fragment and plain relative references; dot-segment removal is not.
- Case mapping is ASCII-only and whitespace is Python's set on code points below 256; Unicode case rules are not modelled.
- The HTTP requests, the random User-Agent headers and the logging are not modelled; fetches are functions of the URL.
- `asyncio.gather` concurrency is modelled as a sequential pass in the same order.
- An End link without `href` raises `KeyError` in `get_total_pages`; the model treats it as having no page number.
- The cache's five-hour expiry is not modelled; cache entries never expire.
- `increment_keyword_search` also bumps a per-keyword counter, `search_count:<keyword>`, which `stats` never reads; it is modelled as the `searchCounts` map.
- `CompanyResponse.model_validate` is not modelled: the pydantic checks, including the `HttpUrl` fields, are not modelled, and an error record that fails validation surfaces as an exception in the source.
- The flush or commit of an error record, whose NULL `company_name` violates the column's NOT NULL constraint, is not modelled as a failure.
- `urlencode` and `urlunparse` string assembly are not modelled: the rewritten URL is kept as its six parts. `parse_qs` is an input that already split the query, so blank-value dropping is not modelled either.
- The query is inserted into the search URLs without URL encoding, as the source does; encoding is not modelled.
- app/api/route.ts, the search form, the tag component and the debounce or stats polling of the page are not part of this model.
- The "N/A" fallbacks the result card renders for a missing category, phone or location are display text only and are not modelled.
- Ranking.TopComplete: completeness is stated for entries not in the returned list, rather than as a multiset difference. With distinct keywords, which `SearchRoute.CountersAgree` keeps, the two are the same.
- Scraper.ParseListing: the email and phone regexes' captures are inputs, so the contract speaks of the captured text, not of the footer text.
- ScraperUrls.UrlJoin: dot segments (`.`, `..`) are not removed, so `urljoin(base, "/directory/../x")` gives `.../x` in Python but keeps `/directory/` here.
- ScraperUrls.UrlJoin: the reference is kept as text, while Python rebuilds every resolved URL with `urlunparse`, which drops an empty `?` or `#` (`"/x?"` and `"?"` lose the `?`).
- ScraperUrls.UrlJoin: recent Python strips leading C0 control characters and spaces from the reference first; the model keeps them, so `" /directory/x"` is resolved as a plain relative path.
- ScraperUrls.UrlJoin: recent Python deletes every tab, carriage return and line feed from the reference; the model keeps them.
- ScraperUrls.UrlJoin: a reference `"///x"` takes the site's host in Python (`https://www.2merkato.com/x`); the model treats it as scheme-relative with an empty host (`https:///x`).
- ScraperUrls.UrlJoin: a scheme must start with an ASCII letter, as in recent Python releases; older releases split some other references differently.
- ScraperUrls.UrlJoin: Python drops empty path segments when merging a relative reference ("directory//x" becomes "/directory/x"); the model keeps them.
- ScraperUrls.UrlJoinKeeps: holds only for the modelled `urljoin`, that is for references without dot segments.
- ScraperUrls.DigitRun: accepts ASCII digits only, while `\d` in `page:(\d+)` also matches other Unicode decimal digits.
- Scraper.ExtractListingLinks: the `/directory/` claim relies on the modelled `urljoin`; an href with dot segments can resolve to a link without it.
- Scraper.CrawlLinks: the `/directory/` claim holds only for hrefs without dot segments, as for ExtractListingLinks.
- Scraper.MainScraper: the `/directory/` claim holds only for hrefs without dot segments, as for ExtractListingLinks.
- Scraper.Fetch: only `aiohttp.ClientError` is modelled as a failed fetch. An `asyncio.TimeoutError` or a `UnicodeDecodeError` from `response.text()` (api/utils/scrapper.py:120, 151, 162) propagates in the source.
- Scraper.MainScraper: `asyncio.gather` without `return_exceptions` (api/utils/scrapper.py:185, 192) lets one such propagated exception fail the whole scrape and the `/search` request; the model has no such outcome.
- ResultItem.TruncateDescription: lengths count code points, while JavaScript's `length` and `substring` count UTF-16 code units and can split a surrogate pair.
- ResultItem.ShortDescription: lengths count code points, while JavaScript counts UTF-16 code units, as for TruncateDescription.
- SearchRoute.Search: the cache, the counters and the ranking are separate maps here, while Redis shares one key space. A keyword equal to "total_requests" makes `cached` an int and the handler raises `TypeError` at api/routes/comp.py:67; "keyword_rankings" raises `WRONGTYPE`; and a cached "search_count:foo" breaks later `incr` calls for "foo" (api/cache/redis.py:17).
- SearchRoute.Search: requests are modelled one at a time. Concurrent requests can insert the same url twice (the column is not unique, api/models/models.py:16), after which `scalar_one_or_none` raises `MultipleResultsFound` (api/routes/comp.py:32).
- MockSearch.SearchCompanies: assumes a database session is injected. The source's `get_db_session_mock` returns None, so `db.execute` raises `AttributeError` for "insurances".

=== FILE: database_url.dfy ===
/** The database URL rewrite done when the database module is loaded: the Neon
    connection string gets the async driver's scheme and loses the query
    parameters that driver does not accept. */
module DatabaseUrl {
  import opened Wrappers
  import opened Text
  import opened Seqs

  const AsyncScheme := "postgresql+asyncpg"
  const NotSetMessage := "NEON_URL environment variable is not set."
  /** Query keys dropped, compared with the key lower-cased. */
  const UnwantedParams := ["sslmode", "channel_binding"]

  /** One entry of `parse_qs`: a key with every value given for it. */
  datatype QueryParam = QueryParam(key: string, values: seq<string>)

  /** The six parts of `urlparse`, with the query already split by `parse_qs`. */
  datatype UrlParts = UrlParts(
    scheme: string,
    netloc: string,
    path: string,
    params: string,
    query: seq<QueryParam>,
    fragment: string)

  predicate IsUnwanted(key: string) {
    Lower(key) in UnwantedParams
  }

  /** The loop building `cleaned_query_params`. `parse_qs` returns a dict, so the
      keys are distinct and the kept parameters with their order fix the result. */
  function FilterParams(q: seq<QueryParam>): (r: seq<QueryParam>)
    ensures IsSubsequence(r, q)
    ensures forall p :: p in r ==> p in q && !IsUnwanted(p.key)
    ensures forall p :: p in q && !IsUnwanted(p.key) ==> p in r
    decreases |q|
  {
    if |q| == 0 then []
    else if IsUnwanted(q[0].key) then FilterParams(q[1..])
    else
      var rest := FilterParams(q[1..]);
      assert forall p :: p in rest ==> p in q by {
        forall p | p in rest ensures p in q {
          assert p in q[1..];
        }
      }
      [q[0]] + rest
  }

  /** A query with no unwanted key passes through unchanged. */
  lemma {:induction false} FilterKeepsClean(q: seq<QueryParam>)
    requires forall p :: p in q ==> !IsUnwanted(p.key)
    ensures FilterParams(q) == q
    decreases |q|
  {
    if |q| > 0 {
      assert q[0] in q;
      assert forall p :: p in q[1..] ==> p in q;
      FilterKeepsClean(q[1..]);
    }
  }

  /** Filtering twice equals filtering once. */
  lemma FilterIdempotent(q: seq<QueryParam>)
    ensures FilterParams(FilterParams(q)) == FilterParams(q)
  {
    FilterKeepsClean(FilterParams(q));
  }

  /** `DATABASE_URL` from the `NEON_URL` environment variable, before reassembly into a
      string: an absent or empty variable is the `ValueError`. */
  function RewriteUrl(neonUrl: Option<string>, parse: string -> UrlParts): (r: Result<UrlParts, string>)
    ensures r.Failure? <==> neonUrl.None? || neonUrl.value == ""
    ensures r.Failure? ==> r.error == NotSetMessage
    ensures r.Success? ==>
      var parts := parse(neonUrl.value);
      r.value.scheme == AsyncScheme &&
      r.value.netloc == parts.netloc && r.value.path == parts.path &&
      r.value.params == parts.params && r.value.fragment == parts.fragment &&
      IsSubsequence(r.value.query, parts.query) &&
      (forall p :: p in r.value.query <==> p in parts.query && !IsUnwanted(p.key))
  {
    if neonUrl.None? || neonUrl.value == "" then Failure(NotSetMessage)
    else
      var parts := parse(neonUrl.value);
      Success(parts.(scheme := AsyncScheme, query := FilterParams(parts.query)))
  }

  /** A URL without unwanted keys keeps its whole query; only the scheme changes. */
  lemma RewriteCleanUrl(neonUrl: string, parse: string -> UrlParts)
    requires neonUrl != ""
    requires forall p :: p in parse(neonUrl).query ==> !IsUnwanted(p.key)
    ensures RewriteUrl(Some(neonUrl), parse) == Success(parse(neonUrl).(scheme := AsyncScheme))
  {
    FilterKeepsClean(parse(neonUrl).query);
  }
}

=== FILE: directory_page.dfy ===
/** The business-directory page: the local result filter over an in-memory list,
    the accordion that keeps at most one result expanded, and the quick-search tags. */
module DirectoryPage {
  import opened Wrappers
  import opened Text
  import opened Seqs

  /** One directory listing as the front end receives it: `url` and `companyName`
      are always present, every other field may be missing. */
  datatype Entry = Entry(
    url: string,
    companyName: string,
    logoUrl: Option<string>,
    phoneMain: Option<string>,
    location: Option<string>,
    primaryCategory: Option<string>,
    website: Option<string>,
    email: Option<string>,
    descriptionFull: Option<string>,
    productsAndServices: Option<seq<string>>,
    descriptionShort: Option<string>)

  /** An optional field matches when it is present and its lowered text contains the
      lowered term; a missing field never matches. */
  predicate FieldMatches(field: Option<string>, lowerTerm: string) {
    field.Some? && Contains(Lower(field.value), lowerTerm)
  }

  /** The filter's test on one entry, for an already lowered term. */
  predicate Matches(e: Entry, lowerTerm: string) {
    || Contains(Lower(e.companyName), lowerTerm)
    || FieldMatches(e.primaryCategory, lowerTerm)
    || FieldMatches(e.location, lowerTerm)
  }

  /** The entries of `d` that match, in their original order. */
  function KeepMatching(d: seq<Entry>, lowerTerm: string): (r: seq<Entry>)
    ensures IsSubsequence(r, d)
    ensures forall e :: multiset(r)[e] == if Matches(e, lowerTerm) then multiset(d)[e] else 0
    decreases |d|
  {
    if |d| == 0 then []
    else
      var rest := KeepMatching(d[1..], lowerTerm);
      assert d == [d[0]] + d[1..];
      if Matches(d[0], lowerTerm) then [d[0]] + rest else rest
  }

  /** The memoised `filteredResults`: the empty term short-circuits to the whole
      dataset; any other term, whitespace included, filters case-insensitively on the
      company name, the primary category and the location. */
  function Filter(dataset: seq<Entry>, term: string): (r: seq<Entry>)
    ensures term == "" ==> r == dataset
    ensures IsSubsequence(r, dataset)
    ensures term != "" ==> forall e :: e in r ==> Matches(e, Lower(term))
    ensures term != "" ==> forall e :: e in dataset && Matches(e, Lower(term)) ==> e in r
    ensures term != "" ==> forall e :: e in dataset && !Matches(e, Lower(term)) ==> e !in r
    ensures term != "" ==> forall e :: Matches(e, Lower(term)) ==> multiset(r)[e] == multiset(dataset)[e]
  {
    if term == "" then
      SubsequenceRefl(dataset);
      dataset
    else
      var r := KeepMatching(dataset, Lower(term));
      assert forall e :: e in r <==> multiset(r)[e] > 0;
      assert forall e :: e in dataset <==> multiset(dataset)[e] > 0;
      r
  }

  /** Filtering the filtered list again with the same term changes nothing. */
  lemma FilterIdempotent(dataset: seq<Entry>, term: string)
    ensures Filter(Filter(dataset, term), term) == Filter(dataset, term)
  {
    if term != "" {
      KeepMatchingIdempotent(dataset, Lower(term));
    }
  }

  lemma {:induction false} KeepMatchingIdempotent(d: seq<Entry>, lowerTerm: string)
    ensures KeepMatching(KeepMatching(d, lowerTerm), lowerTerm) == KeepMatching(d, lowerTerm)
    decreases |d|
  {
    if |d| > 0 {
      KeepMatchingIdempotent(d[1..], lowerTerm);
      var rest := KeepMatching(d[1..], lowerTerm);
      if Matches(d[0], lowerTerm) {
        assert ([d[0]] + rest)[1..] == rest;
      }
    }
  }

  /** `handleToggle`: clicking the expanded entry collapses it, clicking any other
      entry expands that one instead. */
  function Toggle(expanded: Option<string>, url: string): (r: Option<string>)
    ensures r == None <==> expanded == Some(url)
    ensures r != None ==> r == Some(url)
  {
    if expanded == Some(url) then None else Some(url)
  }

  /** Toggle laws: toggling the same url twice from a collapsed state returns to it,
      and toggling a second url leaves only that one expanded. */
  lemma ToggleLaws(a: string, b: string)
    ensures Toggle(Toggle(None, a), a) == None
    ensures a != b ==> Toggle(Toggle(None, a), b) == Some(b)
    ensures Toggle(Toggle(Some(a), a), a) == Some(a)
  {
  }

  /** The urls of the listed entries, in order. */
  function EntryUrls(results: seq<Entry>): (u: seq<string>)
    ensures |u| == |results|
    ensures forall i :: 0 <= i < |results| ==> u[i] == results[i].url
  {
    seq(|results|, i requires 0 <= i < |results| => results[i].url)
  }

  /** Which listed entries render expanded (`expandedId === result.url`). */
  function ExpandedFlags(results: seq<Entry>, expanded: Option<string>): (r: seq<bool>)
    ensures |r| == |results|
    ensures forall i :: 0 <= i < |r| ==> (r[i] <==> expanded == Some(results[i].url))
    ensures expanded == None ==> forall i :: 0 <= i < |r| ==> !r[i]
    ensures NoDuplicates(EntryUrls(results)) ==> forall i, j :: 0 <= i < j < |r| ==> !(r[i] && r[j])
  {
    seq(|results|, i requires 0 <= i < |results| => expanded == Some(results[i].url))
  }

  /** The quick-search chips under the search box. */
  const Tags: seq<string> := ["Construction", "Consultancy", "Addis Ababa"]

  /** Which chips render active: a chip is active exactly when the search term equals
      its text, so at most one chip is active at a time. */
  function ActiveTags(term: string): (r: seq<bool>)
    ensures |r| == |Tags|
    ensures forall i :: 0 <= i < |r| ==> (r[i] <==> term == Tags[i])
    ensures forall i, j :: 0 <= i < j < |r| ==> !(r[i] && r[j])
  {
    seq(|Tags|, i requires 0 <= i < |Tags| => term == Tags[i])
  }

  /** The "CLEAR [X]" chip appears only while a term is entered. */
  function ShowsClearChip(term: string): (shown: bool)
    ensures shown <==> |term| > 0
  {
    term != ""
  }
}

=== FILE: mock_search.dfy ===
/** The stand-alone search endpoint of the back end's test module: a mock scraper and
    a save routine that only counts the scraped items whose url is not yet stored,
    without writing anything. */
module MockSearch {
  import opened Seqs
  import opened ScraperUrls
  import opened Scraper
  import opened SearchRoute

  const SuccessStatus := "success"
  const InsurancesKeyword := "insurances"
  const PhoenixUrl := "https://www.2merkato.com/directory/40278-phoenix-xpress-logistics"
  const NewInsuranceUrl := "https://www.2merkato.com/directory/new-insurance"

  /** One scraped item of the mock: a company name and a url. */
  datatype MockItem = MockItem(companyName: string, url: string)

  /** The urls of the mock's items; the mock returns plain dicts, not the
      directory page's entries, so it has its own item type and projection. */
  function UrlsOf(items: seq<MockItem>): (r: seq<string>)
    ensures |r| == |items|
    ensures forall i :: 0 <= i < |items| ==> r[i] == items[i].url
  {
    seq(|items|, i requires 0 <= i < |items| => items[i].url)
  }

  /** How many of `urls` are missing from `stored`, each occurrence counted. */
  function CountAbsent(stored: set<string>, urls: seq<string>): (n: nat)
    ensures n <= |urls|
    decreases |urls|
  {
    if |urls| == 0 then 0
    else CountAbsent(stored, urls[..|urls| - 1]) + (if urls[|urls| - 1] in stored then 0 else 1)
  }

  lemma {:induction false} CountAbsentAppend(stored: set<string>, a: seq<string>, b: seq<string>)
    ensures CountAbsent(stored, a + b) == CountAbsent(stored, a) + CountAbsent(stored, b)
    decreases |b|
  {
    if |b| == 0 {
      assert a + b == a;
    } else {
      assert (a + b)[..|a + b| - 1] == a + b[..|b| - 1];
      CountAbsentAppend(stored, a, b[..|b| - 1]);
    }
  }

  lemma CountAbsentCons(stored: set<string>, u: string, rest: seq<string>)
    ensures CountAbsent(stored, [u] + rest) == (if u in stored then 0 else 1) + CountAbsent(stored, rest)
  {
    CountAbsentAppend(stored, [u], rest);
    assert [u][..0] == [];
  }

  /** The store is never written, so a url missing from it is counted every time it
      occurs: a batch scraped twice counts twice. */
  lemma RepeatedBatchCountedTwice(stored: set<string>, urls: seq<string>)
    ensures CountAbsent(stored, urls + urls) == 2 * CountAbsent(stored, urls)
  {
    CountAbsentAppend(stored, urls, urls);
  }

  /** Knowing more urls never raises the count. */
  lemma {:induction false} CountAbsentAntitone(small: set<string>, large: set<string>, urls: seq<string>)
    requires small <= large
    ensures CountAbsent(large, urls) <= CountAbsent(small, urls)
    decreases |urls|
  {
    if |urls| > 0 {
      CountAbsentAntitone(small, large, urls[..|urls| - 1]);
    }
  }

  /** Storing a url that does not occur in `urls` leaves their count alone. */
  lemma {:induction false} CountAbsentIgnores(stored: set<string>, u: string, urls: seq<string>)
    requires u !in urls
    ensures CountAbsent(stored + {u}, urls) == CountAbsent(stored, urls)
    decreases |urls|
  {
    if |urls| > 0 {
      assert urls[|urls| - 1] in urls;
      assert forall x :: x in urls[..|urls| - 1] ==> x in urls;
      CountAbsentIgnores(stored, u, urls[..|urls| - 1]);
    }
  }

  /** The test module's `save_search_result_sqlalchemy`. */
  method SaveCounting(stored: set<string>, scraped: seq<MockItem>) returns (status: string, newRecords: nat)
    ensures status == SuccessStatus
    ensures newRecords == CountAbsent(stored, UrlsOf(scraped))
    ensures newRecords <= |scraped|
  {
    var urls := UrlsOf(scraped);
    newRecords := 0;
    var i := 0;
    while i < |scraped|
      invariant 0 <= i <= |scraped|
      invariant newRecords == CountAbsent(stored, urls[..i])
    {
      assert urls[..i + 1][..i] == urls[..i];
      if scraped[i].url !in stored {
        newRecords := newRecords + 1;
      }
      i := i + 1;
    }
    assert urls[..|scraped|] == urls;
    status := SuccessStatus;
  }

  /** `mock_scraper`: two fixed items for "insurances", nothing otherwise. */
  function MockScraper(keyword: string): (r: seq<MockItem>)
    ensures keyword != InsurancesKeyword ==> r == []
    ensures keyword == InsurancesKeyword ==> |r| == 2 && r[0].url != r[1].url
  {
    if keyword == InsurancesKeyword then
      [MockItem("Phoenix Xpress Logistics", PhoenixUrl), MockItem("New Insurance Co.", NewInsuranceUrl)]
    else []
  }

  datatype SaveResult = SaveResult(status: string, newRecords: nat)

  datatype SearchCompaniesResponse = SearchCompaniesResponse(keyword: string, totalScraped: nat, dbResult: SaveResult)

  /** The `/search/{keyword}` endpoint of the test module. */
  method SearchCompanies(keyword: string, stored: set<string>) returns (resp: SearchCompaniesResponse)
    ensures resp.keyword == keyword
    ensures resp.totalScraped == |MockScraper(keyword)|
    ensures resp.dbResult.status == SuccessStatus
    ensures resp.dbResult.newRecords == CountAbsent(stored, UrlsOf(MockScraper(keyword)))
    ensures resp.dbResult.newRecords <= resp.totalScraped
  {
    var scraped := MockScraper(keyword);
    var status, newRecords := SaveCounting(stored, scraped);
    resp := SearchCompaniesResponse(keyword, |scraped|, SaveResult(status, newRecords));
  }

  /** Against an empty store both mock items are new; with one stored, one is. */
  lemma InsurancesCounts()
    ensures CountAbsent({}, UrlsOf(MockScraper(InsurancesKeyword))) == 2
    ensures CountAbsent({PhoenixUrl}, UrlsOf(MockScraper(InsurancesKeyword))) == 1
  {
    var urls := UrlsOf(MockScraper(InsurancesKeyword));
    assert urls == [PhoenixUrl] + [NewInsuranceUrl];
    CountAbsentCons({}, PhoenixUrl, [NewInsuranceUrl]);
    CountAbsentCons({}, NewInsuranceUrl, []);
    CountAbsentCons({PhoenixUrl}, PhoenixUrl, [NewInsuranceUrl]);
    CountAbsentCons({PhoenixUrl}, NewInsuranceUrl, []);
  }

  function RecordUrls(items: seq<ScrapeRecord>): (r: seq<string>)
    ensures |r| == |items|
    ensures forall i :: 0 <= i < |items| ==> r[i] == RecordUrl(items[i])
  {
    seq(|items|, i requires 0 <= i < |items| => RecordUrl(items[i]))
  }

  /** The count the test variant reports bounds the rows the real save inserts: the
      real save sees its own inserts, the count does not. */
  lemma {:induction false} CountBoundsSave(rows: seq<Company>, items: seq<ScrapeRecord>)
    ensures |rows| <= |SaveNew(rows, items)|
    ensures |SaveNew(rows, items)| - |rows| <= CountAbsent(Urls(rows), RecordUrls(items))
    decreases |items|
  {
    SaveNewKeepsRows(rows, items);
    if |items| > 0 {
      var u := RecordUrl(items[0]);
      var tail := items[1..];
      var tailUrls := RecordUrls(tail);
      assert RecordUrls(items) == [u] + tailUrls;
      CountAbsentCons(Urls(rows), u, tailUrls);
      if u in Urls(rows) {
        CountBoundsSave(rows, tail);
      } else {
        var next := rows + [CompanyOf(items[0])];
        UrlsAppend(rows, CompanyOf(items[0]));
        CountBoundsSave(next, tail);
        CountAbsentAntitone(Urls(rows), Urls(next), tailUrls);
      }
    }
  }

  /** With no url repeated in the batch, the count is exactly the number of rows the
      real save inserts. */
  lemma {:induction false} CountEqualsSave(rows: seq<Company>, items: seq<ScrapeRecord>)
    requires NoDuplicates(RecordUrls(items))
    ensures |rows| <= |SaveNew(rows, items)|
    ensures |SaveNew(rows, items)| - |rows| == CountAbsent(Urls(rows), RecordUrls(items))
    decreases |items|
  {
    SaveNewKeepsRows(rows, items);
    if |items| > 0 {
      var u := RecordUrl(items[0]);
      var tail := items[1..];
      var tailUrls := RecordUrls(tail);
      assert RecordUrls(items) == [u] + tailUrls;
      assert NoDuplicates(tailUrls) by {
        forall a, b | 0 <= a < b < |tailUrls|
          ensures tailUrls[a] != tailUrls[b]
        {
          assert RecordUrls(items)[a + 1] == tailUrls[a];
          assert RecordUrls(items)[b + 1] == tailUrls[b];
        }
      }
      CountAbsentCons(Urls(rows), u, tailUrls);
      if u in Urls(rows) {
        CountEqualsSave(rows, tail);
      } else {
        var next := rows + [CompanyOf(items[0])];
        UrlsAppend(rows, CompanyOf(items[0]));
        CountEqualsSave(next, tail);
        assert u !in tailUrls by {
          forall k | 0 <= k < |tailUrls|
            ensures tailUrls[k] != u
          {
            assert RecordUrls(items)[k + 1] == tailUrls[k];
          }
        }
        CountAbsentIgnores(Urls(rows), u, tailUrls);
      }
    }
  }
}

=== FILE: ranking.dfy ===
/** The keyword ranking behind the `stats` endpoint: a sorted set of keywords scored
    by how often they were searched, read back highest score first. */
module Ranking {

  /** One member of the ranking and its score. */
  datatype Scored = Scored(keyword: string, score: nat)

  /** Lexicographic order on code points, which is the order of the members' UTF-8
      bytes that the sorted set uses to break score ties. */
  predicate StrLess(a: string, b: string)
    decreases |a|
  {
    if |a| == 0 then |b| > 0
    else |b| > 0 && (a[0] < b[0] || (a[0] == b[0] && StrLess(a[1..], b[1..])))
  }

  lemma {:induction false} StrLessIrreflexive(a: string)
    ensures !StrLess(a, a)
    decreases |a|
  {
    if |a| > 0 {
      StrLessIrreflexive(a[1..]);
    }
  }

  lemma {:induction false} StrLessTransitive(a: string, b: string, c: string)
    requires StrLess(a, b) && StrLess(b, c)
    ensures StrLess(a, c)
    decreases |a|
  {
    if |a| > 0 && a[0] == b[0] && b[0] == c[0] {
      StrLessTransitive(a[1..], b[1..], c[1..]);
    }
  }

  lemma {:induction false} StrLessTotal(a: string, b: string)
    requires a != b
    ensures StrLess(a, b) || StrLess(b, a)
    decreases |a|
  {
    if |a| > 0 && |b| > 0 && a[0] == b[0] {
      assert a == [a[0]] + a[1..] && b == [b[0]] + b[1..];
      StrLessTotal(a[1..], b[1..]);
    }
  }

  /** `x` is listed no later than `y`: a higher score first, and among equal scores
      the lexicographically greater keyword first. */
  predicate ListedFirst(x: Scored, y: Scored) {
    x.score > y.score || (x.score == y.score && !StrLess(x.keyword, y.keyword))
  }

  /** Of any two entries one is listed no later than the other. */
  lemma ListedFirstTotal(x: Scored, y: Scored)
    ensures ListedFirst(x, y) || ListedFirst(y, x)
  {
    if x.score == y.score && StrLess(x.keyword, y.keyword) && StrLess(y.keyword, x.keyword) {
      StrLessTransitive(x.keyword, y.keyword, x.keyword);
      StrLessIrreflexive(x.keyword);
    }
  }

  lemma ListedFirstTransitive(x: Scored, y: Scored, z: Scored)
    requires ListedFirst(x, y) && ListedFirst(y, z)
    ensures ListedFirst(x, z)
  {
    if x.score == z.score && x.keyword != y.keyword && !StrLess(x.keyword, y.keyword) {
      StrLessTotal(x.keyword, y.keyword);
      if StrLess(x.keyword, z.keyword) {
        StrLessTransitive(y.keyword, x.keyword, z.keyword);
      }
    }
  }

  /** The position of the entry listed first. */
  function BestIndex(r: seq<Scored>): (i: nat)
    requires |r| > 0
    ensures i < |r|
    ensures forall j :: 0 <= j < |r| ==> ListedFirst(r[i], r[j])
    decreases |r|
  {
    if |r| == 1 then
      StrLessIrreflexive(r[0].keyword);
      0
    else
      var k := BestIndex(r[1..]) + 1;
      assert forall j :: 1 <= j < |r| ==> ListedFirst(r[k], r[j]) by {
        forall j | 1 <= j < |r|
          ensures ListedFirst(r[k], r[j])
        {
          assert r[j] == r[1..][j - 1];
        }
      }
      if ListedFirst(r[0], r[k]) then
        assert forall j :: 0 <= j < |r| ==> ListedFirst(r[0], r[j]) by {
          StrLessIrreflexive(r[0].keyword);
          forall j | 1 <= j < |r|
            ensures ListedFirst(r[0], r[j])
          {
            ListedFirstTransitive(r[0], r[k], r[j]);
          }
        }
        0
      else
        ListedFirstTotal(r[0], r[k]);
        k
  }

  /** The entries without the one at position `i`. */
  function RemoveAt(r: seq<Scored>, i: nat): (rest: seq<Scored>)
    requires i < |r|
    ensures |rest| == |r| - 1
    ensures multiset(r) == multiset(rest) + multiset{r[i]}
  {
    assert r == r[..i] + [r[i]] + r[i + 1..];
    r[..i] + r[i + 1..]
  }

  /** `zrevrange(0, n - 1)`: the first `n` entries in listing order, taken by
      repeatedly removing the entry listed first. */
  function Top(r: seq<Scored>, n: nat): (t: seq<Scored>)
    ensures |t| == if n < |r| then n else |r|
    ensures multiset(t) <= multiset(r)
    decreases n
  {
    if n == 0 || |r| == 0 then []
    else
      var i := BestIndex(r);
      [r[i]] + Top(RemoveAt(r, i), n - 1)
  }

  /** Every top entry is an entry of the ranking. */
  lemma TopMembers(r: seq<Scored>, n: nat)
    ensures forall x :: x in Top(r, n) ==> x in r
  {
    forall x | x in Top(r, n)
      ensures x in r
    {
      assert x in multiset(Top(r, n));
    }
  }

  /** The entry listed first is listed no later than any entry. */
  lemma BestFirst(r: seq<Scored>)
    requires |r| > 0
    ensures forall y :: y in r ==> ListedFirst(r[BestIndex(r)], y)
  {
  }

  /** Entries listed in order: each is listed no later than the next. */
  predicate Sorted(t: seq<Scored>)
    decreases |t|
  {
    |t| < 2 || (ListedFirst(t[0], t[1]) && Sorted(t[1..]))
  }

  /** In a sorted list every entry is listed no later than every entry after it. */
  lemma {:induction false} SortedPairwise(t: seq<Scored>)
    requires Sorted(t)
    ensures forall i, j :: 0 <= i < j < |t| ==> ListedFirst(t[i], t[j])
    decreases |t|
  {
    if |t| >= 2 {
      var u := t[1..];
      SortedPairwise(u);
      forall i, j | 0 <= i < j < |t|
        ensures ListedFirst(t[i], t[j])
      {
        assert t[j] == u[j - 1];
        if i > 0 {
          assert t[i] == u[i - 1];
        } else if j > 1 {
          assert ListedFirst(t[1], t[j]) by {
            assert t[1] == u[0];
          }
          ListedFirstTransitive(t[0], t[1], t[j]);
        }
      }
    }
  }

  /** Whatever is in the rest after a removal was in the ranking. */
  lemma RemoveAtMembers(r: seq<Scored>, i: nat)
    requires i < |r|
    ensures forall y :: y in RemoveAt(r, i) ==> y in r
  {
    forall y | y in RemoveAt(r, i)
      ensures y in r
    {
      assert y in multiset(RemoveAt(r, i));
    }
  }

  lemma SortedCons(x: Scored, tail: seq<Scored>)
    requires Sorted(tail)
    requires |tail| > 0 ==> ListedFirst(x, tail[0])
    ensures Sorted([x] + tail)
  {
    assert ([x] + tail)[1..] == tail;
  }

  /** The entry listed first comes no later than the first of the others' top. */
  lemma BestBeforeRest(r: seq<Scored>, n: nat)
    requires |r| > 0
    ensures |Top(RemoveAt(r, BestIndex(r)), n)| > 0 ==>
      ListedFirst(r[BestIndex(r)], Top(RemoveAt(r, BestIndex(r)), n)[0])
  {
    var i := BestIndex(r);
    var tail := Top(RemoveAt(r, i), n);
    if |tail| > 0 {
      TopMembers(RemoveAt(r, i), n);
      RemoveAtMembers(r, i);
      assert tail[0] in tail;
      BestFirst(r);
    }
  }

  /** The top entries come out in listing order. */
  lemma {:induction false} TopSorted(r: seq<Scored>, n: nat)
    ensures Sorted(Top(r, n))
    decreases n
  {
    if n > 0 && |r| > 0 {
      var i := BestIndex(r);
      var tail := Top(RemoveAt(r, i), n - 1);
      TopSorted(RemoveAt(r, i), n - 1);
      assert Sorted(tail);
      BestBeforeRest(r, n - 1);
      assert |tail| > 0 ==> ListedFirst(r[i], tail[0]);
      SortedCons(r[i], Top(RemoveAt(r, i), n - 1));
    }
  }

  /** Every entry of `r` missing from `t` is listed after every entry of `t`. */
  predicate RestAfter(t: seq<Scored>, r: seq<Scored>) {
    forall x, y :: x in t && y in r && y !in t ==> ListedFirst(x, y)
  }

  lemma RestAfterCons(r: seq<Scored>, i: nat, tail: seq<Scored>)
    requires 0 < |r| && i == BestIndex(r)
    requires RestAfter(tail, RemoveAt(r, i))
    ensures RestAfter([r[i]] + tail, r)
  {
    var t := [r[i]] + tail;
    var rest := RemoveAt(r, i);
    BestFirst(r);
    forall x, y | x in t && y in r && y !in t
      ensures ListedFirst(x, y)
    {
      assert y != r[i];
      assert y in multiset(r);
      assert y in multiset(rest);
      assert y in rest;
      if x != r[i] {
        assert x in tail;
      }
    }
  }

  /** One step of `Top`: the entry listed first, then the top of the others. */
  lemma TopUnfold(r: seq<Scored>, n: nat)
    requires n > 0 && |r| > 0
    ensures Top(r, n) == [r[BestIndex(r)]] + Top(RemoveAt(r, BestIndex(r)), n - 1)
  {
  }

  /** Every entry left out is listed after every entry returned. */
  lemma {:induction false} TopComplete(r: seq<Scored>, n: nat)
    ensures RestAfter(Top(r, n), r)
    decreases n
  {
    if n > 0 && |r| > 0 {
      var i := BestIndex(r);
      var tail := Top(RemoveAt(r, i), n - 1);
      TopComplete(RemoveAt(r, i), n - 1);
      RestAfterCons(r, i, tail);
      TopUnfold(r, n);
    }
  }

  /** How many entries `zrevrange(0, limit - 1)` returns from `size`: a positive limit
      asks for `limit` entries; otherwise the stop index `limit - 1` is negative and
      Redis counts it from the end, so all but the last `-limit` entries come back. */
  function RangeCount(limit: int, size: nat): nat {
    if limit > 0 then limit else if size + limit > 0 then size + limit else 0
  }

  /** `get_top_keywords(limit)`: the ranking read back highest score first, as many
      entries as the stop index `limit - 1` selects. */
  function RevRange(r: seq<Scored>, limit: int): (t: seq<Scored>)
    ensures limit > 0 ==> |t| == if limit < |r| then limit else |r|
    ensures limit <= 0 ==> |t| == if |r| + limit > 0 then |r| + limit else 0
    ensures limit == 0 ==> multiset(t) == multiset(r)
    ensures multiset(t) <= multiset(r)
  {
    var t := Top(r, RangeCount(limit, |r|));
    if limit == 0 then
      assert |t| == |r|;
      SubMultisetSameSize(t, r);
      t
    else t
  }

  /** A sub-multiset of the same size is the whole multiset. */
  lemma SubMultisetSameSize(t: seq<Scored>, r: seq<Scored>)
    requires multiset(t) <= multiset(r) && |t| == |r|
    ensures multiset(t) == multiset(r)
  {
    var d := multiset(r) - multiset(t);
    assert multiset(r) == multiset(t) + d;
    assert |multiset(r)| == |multiset(t)| + |d|;
    assert |d| == 0;
  }

  /** The range comes out in listing order. */
  lemma RevRangeSorted(r: seq<Scored>, limit: int)
    ensures Sorted(RevRange(r, limit))
  {
    TopSorted(r, RangeCount(limit, |r|));
  }

  /** Every entry the range leaves out is listed after every entry it returns. */
  lemma RevRangeComplete(r: seq<Scored>, limit: int)
    ensures RestAfter(RevRange(r, limit), r)
  {
    TopComplete(r, RangeCount(limit, |r|));
  }

  /** The score of `keyword`, 0 when it has never been searched. */
  function ScoreOf(r: seq<Scored>, keyword: string): nat
    decreases |r|
  {
    if |r| == 0 then 0
    else if r[0].keyword == keyword then r[0].score
    else ScoreOf(r[1..], keyword)
  }

  function Keywords(r: seq<Scored>): set<string>
    decreases |r|
  {
    if |r| == 0 then {} else {r[0].keyword} + Keywords(r[1..])
  }

  /** No keyword is listed twice. */
  predicate DistinctKeywords(r: seq<Scored>)
    decreases |r|
  {
    |r| == 0 || (r[0].keyword !in Keywords(r[1..]) && DistinctKeywords(r[1..]))
  }

  /** `zincrby(1, keyword)`: the keyword's score goes up by one (a new keyword enters
      with score 1) and every other score is unchanged. */
  function Bump(r: seq<Scored>, keyword: string): (b: seq<Scored>)
    ensures ScoreOf(b, keyword) == ScoreOf(r, keyword) + 1
    ensures forall k :: k != keyword ==> ScoreOf(b, k) == ScoreOf(r, k)
    decreases |r|
  {
    if |r| == 0 then [Scored(keyword, 1)]
    else if r[0].keyword == keyword then [r[0].(score := r[0].score + 1)] + r[1..]
    else [r[0]] + Bump(r[1..], keyword)
  }

  /** Bumping adds the keyword to the set of ranked keywords and never lists a
      keyword twice. */
  lemma {:induction false} BumpKeepsDistinct(r: seq<Scored>, keyword: string)
    requires DistinctKeywords(r)
    ensures Keywords(Bump(r, keyword)) == Keywords(r) + {keyword}
    ensures DistinctKeywords(Bump(r, keyword))
    decreases |r|
  {
    var b := Bump(r, keyword);
    if |r| > 0 && r[0].keyword == keyword {
      assert b[1..] == r[1..];
    } else if |r| > 0 {
      BumpKeepsDistinct(r[1..], keyword);
      assert b[1..] == Bump(r[1..], keyword);
    }
  }
}

=== FILE: result_item.dfy ===
/** One expandable result card: its description shortening, its image gallery and
    its website link guard. */
module ResultItem {
  import opened Wrappers
  import DirectoryPage

  const DefaultMaxLength := 150
  const Ellipsis := "..."
  const NoDescription := "No description available."

  /** JavaScript's `substring(0, n)` treats a negative end as zero. */
  function ClampLength(n: int, len: nat): (k: nat)
    ensures k <= len
    ensures 0 <= n <= len ==> k == n
  {
    if n < 0 then 0 else if n > len then len else n
  }

  /** `truncateDescription`: an empty text stays empty, a text no longer than
      `maxLength` is kept whole, a longer one is cut to `maxLength` characters and
      marked with an ellipsis. */
  function TruncateDescription(description: string, maxLength: int): (r: string)
    ensures description == "" ==> r == ""
    ensures |description| <= maxLength ==> r == description
    ensures description != "" && |description| > maxLength ==>
      && |r| == ClampLength(maxLength, |description|) + 3
      && r[..|r| - 3] <= description
      && r[|r| - 3..] == Ellipsis
    ensures description != "" && |description| > maxLength && maxLength >= 0 ==> |r| == maxLength + 3
  {
    if description == "" then ""
    else if |description| <= maxLength then description
    else description[..ClampLength(maxLength, |description|)] + Ellipsis
  }

  /** `description.split('.')[0]`: the text up to, not including, the first full stop. */
  function FirstSentence(s: string): (r: string)
    ensures r <= s
    ensures forall i :: 0 <= i < |r| ==> r[i] != '.'
    ensures |r| == |s| || s[|r|] == '.'
    decreases |s|
  {
    if |s| == 0 || s[0] == '.' then "" else [s[0]] + FirstSentence(s[1..])
  }

  /** `getShortDescription`: a missing description has a fixed placeholder; a first
      sentence of at most 200 characters is shown with one closing full stop; anything
      longer is the 150-character truncation. Every result ends with a full stop and
      is at most 201 characters long. */
  function ShortDescription(description: string): (r: string)
    ensures description == "" ==> r == NoDescription
    ensures description != "" && |FirstSentence(description)| <= 200 ==>
      && r == FirstSentence(description) + "."
      && forall i :: 0 <= i < |r| - 1 ==> r[i] != '.'
    ensures |FirstSentence(description)| > 200 ==>
      && |r| == 153
      && r[..150] == description[..150]
      && r[150..] == Ellipsis
    ensures 0 < |r| <= 201 && r[|r| - 1] == '.'
  {
    if description == "" then NoDescription
    else
      var first := FirstSentence(description);
      if |first| <= 200 then first + "."
      else TruncateDescription(description, DefaultMaxLength)
  }

  /** The card's summary line: a missing description is treated as empty. */
  function CardSummary(e: DirectoryPage.Entry): (r: string)
    ensures e.descriptionFull.None? ==> r == NoDescription
    ensures 0 < |r| && r[|r| - 1] == '.'
  {
    ShortDescription(e.descriptionFull.GetOr(""))
  }

  /** The gallery renders the first six product images, in order. */
  function GalleryImages(products: Option<seq<string>>): (r: seq<string>)
    ensures products.None? ==> r == []
    ensures products.Some? ==> r <= products.value
    ensures products.Some? ==> |r| == if |products.value| < 6 then |products.value| else 6
  {
    match products
    case None => []
    case Some(p) => if |p| <= 6 then p else p[..6]
  }

  /** The "VISIT WEBSITE" link is rendered only for a website that is present, non-empty
      (JavaScript truthiness) and not the literal "N/A"; it links to that website. */
  function WebsiteLink(website: Option<string>): (r: Option<string>)
    ensures r.Some? <==> website.Some? && website.value != "" && website.value != "N/A"
    ensures r.Some? ==> r == website
  {
    if website.Some? && website.value != "" && website.value != "N/A" then website else None
  }
}

=== FILE: scraper.dfy ===
/** The directory scraper: `N/A` normalisation, the listing-page field extraction over
    an already parsed page, the page-count precedence, link collection and the
    page-by-page crawl. HTML parsing, regular expressions over page text and HTTP are
    inputs: a parsed page is a record of what the selectors found. */
module Scraper {
  import opened Wrappers
  import opened Text
  import opened ScraperUrls
  import opened Seqs

  const NA := "N/A"

  // ---------------------------------------------------------------- clean_na

  /** A string the site uses for a missing value: "n/a" in any case, padded or not. */
  predicate IsNa(s: string) {
    Lower(Strip(s)) == "n/a"
  }

  /** A field is clean when it is absent or holds something other than "n/a". */
  predicate Clean(v: Option<string>) {
    v.None? || !IsNa(v.value)
  }

  /** `clean_na`: a string that reads "n/a" becomes None; anything else, None
      included, is returned unchanged. */
  function CleanNa(v: Option<string>): (r: Option<string>)
    ensures r == None <==> v == None || IsNa(v.value)
    ensures r != None ==> r == v
    ensures Clean(r)
  {
    if v.Some? && IsNa(v.value) then None else v
  }

  /** The site's own placeholder reads as missing. */
  lemma NaIsNa()
    ensures IsNa(NA)
  {
    NaStripped();
    NaLowered();
  }

  lemma NaStripped()
    ensures Strip(NA) == NA
  {
    assert NA[0] == 'N' && NA[|NA| - 1] == 'A';
    StripKeeps(NA);
  }

  lemma NaLowered()
    ensures Lower(NA) == "n/a"
  {
    var l := Lower(NA);
    assert l[0] == 'n' && l[1] == '/' && l[2] == 'a';
  }

  /** Cleaning twice is cleaning once. */
  lemma CleanNaIdempotent(v: Option<string>)
    ensures CleanNa(CleanNa(v)) == CleanNa(v)
  {
  }

  // ---------------------------------------------------------------- contact table

  /** A table cell: its text, and the text of its first link if it has one. */
  datatype Cell = Cell(text: string, anchorText: Option<string>)

  /** The three values read from the contact table, each "N/A" until found. */
  datatype Contacts = Contacts(phone: string, location: string, category: string)

  const NoContacts := Contacts(NA, NA, NA)

  function Label(row: seq<Cell>): string
    requires |row| == 2
  {
    Lower(Strip(row[0].text))
  }

  function Value(row: seq<Cell>): string
    requires |row| == 2
  {
    Strip(row[1].text)
  }

  /** The row fills the phone: a mobile row while no phone has been found yet. */
  predicate TakesPhone(c: Contacts, row: seq<Cell>) {
    |row| == 2 && Contains(Label(row), "mobile") && c.phone == NA
  }

  /** The row sets the location (any location row the phone branch did not take). */
  predicate TakesLocation(c: Contacts, row: seq<Cell>) {
    |row| == 2 && !TakesPhone(c, row) && Contains(Label(row), "location")
  }

  /** The row sets the category: a primary-category row that neither branch before
      it took. */
  predicate TakesCategory(c: Contacts, row: seq<Cell>) {
    |row| == 2 && !TakesPhone(c, row) && !TakesLocation(c, row) && Contains(Label(row), "primary category")
  }

  /** The category a row gives: the text of its link if the value cell has one,
      otherwise the value. */
  function CategoryValue(row: seq<Cell>): string
    requires |row| == 2
  {
    if row[1].anchorText.Some? then Strip(row[1].anchorText.value) else Value(row)
  }

  /** One table row of the contact loop. Only rows of exactly two cells are read; the
      branches are tried in the order mobile, location, primary category. */
  function ContactStep(c: Contacts, row: seq<Cell>): Contacts {
    if |row| != 2 then c
    else if TakesPhone(c, row) then c.(phone := Value(row))
    else if TakesLocation(c, row) then c.(location := Value(row))
    else if Contains(Label(row), "primary category") then c.(category := CategoryValue(row))
    else c
  }

  /** The contact loop over the rows in document order. */
  function ContactFold(c: Contacts, rows: seq<seq<Cell>>): Contacts
    decreases |rows|
  {
    if |rows| == 0 then c else ContactFold(ContactStep(c, rows[0]), rows[1..])
  }

  /** Rows of two cells only, each as often as it occurs among the rows. */
  function Pairs(rows: seq<seq<Cell>>): (r: seq<seq<Cell>>)
    ensures IsSubsequence(r, rows)
    ensures forall row :: row in r ==> |row| == 2
    ensures forall row :: row in rows && |row| == 2 ==> row in r
    ensures forall row :: multiset(r)[row] == if |row| == 2 then multiset(rows)[row] else 0
    decreases |rows|
  {
    if |rows| == 0 then []
    else
      var rest := Pairs(rows[1..]);
      assert rows == [rows[0]] + rows[1..];
      if |rows[0]| == 2 then
        assert ([rows[0]] + rest)[1..] == rest;
        [rows[0]] + rest
      else rest
  }

  lemma StepSkipsNonPair(c: Contacts, row: seq<Cell>)
    requires |row| != 2
    ensures ContactStep(c, row) == c
  {
  }

  /** Rows that do not have exactly two cells have no effect on the result. */
  lemma {:induction false} OnlyPairsCount(c: Contacts, rows: seq<seq<Cell>>)
    ensures ContactFold(c, rows) == ContactFold(c, Pairs(rows))
    decreases |rows|
  {
    if |rows| > 0 {
      if |rows[0]| == 2 {
        OnlyPairsCount(ContactStep(c, rows[0]), rows[1..]);
        var p := Pairs(rows);
        assert p == [rows[0]] + Pairs(rows[1..]);
        assert p[1..] == Pairs(rows[1..]);
      } else {
        StepSkipsNonPair(c, rows[0]);
        OnlyPairsCount(c, rows[1..]);
      }
    }
  }

  /** Folding one more row is one more step. */
  lemma {:induction false} ContactFoldSnoc(c: Contacts, rows: seq<seq<Cell>>, row: seq<Cell>)
    ensures ContactFold(c, rows + [row]) == ContactStep(ContactFold(c, rows), row)
    decreases |rows|
  {
    if |rows| > 0 {
      assert (rows + [row])[1..] == rows[1..] + [row];
      ContactFoldSnoc(ContactStep(c, rows[0]), rows[1..], row);
    }
  }

  /** The value of the first two-cell mobile row whose value is not exactly "N/A"
      (a row whose value is "N/A" leaves the phone open for the next one). */
  function FirstMobile(rows: seq<seq<Cell>>): string
    decreases |rows|
  {
    if |rows| == 0 then NA
    else if |rows[0]| == 2 && Contains(Label(rows[0]), "mobile") && Value(rows[0]) != NA then Value(rows[0])
    else FirstMobile(rows[1..])
  }

  /** The first mobile row wins: once a phone is found no later row replaces it. */
  lemma {:induction false} PhoneIsFirstMobile(c: Contacts, rows: seq<seq<Cell>>)
    ensures c.phone != NA ==> ContactFold(c, rows).phone == c.phone
    ensures c.phone == NA ==> ContactFold(c, rows).phone == FirstMobile(rows)
    decreases |rows|
  {
    if |rows| > 0 {
      StepPhone(c, rows[0]);
      PhoneIsFirstMobile(ContactStep(c, rows[0]), rows[1..]);
    }
  }

  /** One row changes the phone only while it is "N/A", and then only a mobile row. */
  lemma StepPhone(c: Contacts, row: seq<Cell>)
    ensures c.phone != NA ==> ContactStep(c, row).phone == c.phone
    ensures c.phone == NA ==>
      ContactStep(c, row).phone == (if |row| == 2 && Contains(Label(row), "mobile") then Value(row) else NA)
  {
    if |row| == 2 && !TakesPhone(c, row) {
      assert ContactStep(c, row).phone == c.phone;
    }
  }

  /** A later location row overwrites whatever an earlier one set. */
  lemma LaterLocationOverwrites(c: Contacts, rows: seq<seq<Cell>>, row: seq<Cell>)
    ensures TakesLocation(ContactFold(c, rows), row) ==>
      ContactFold(c, rows + [row]).location == Value(row)
  {
    ContactFoldSnoc(c, rows, row);
  }

  /** A later primary-category row overwrites whatever an earlier one set. */
  lemma LaterCategoryOverwrites(c: Contacts, rows: seq<seq<Cell>>, row: seq<Cell>)
    ensures TakesCategory(ContactFold(c, rows), row) ==>
      ContactFold(c, rows + [row]).category == CategoryValue(row)
  {
    ContactFoldSnoc(c, rows, row);
  }

  // ---------------------------------------------------------------- listing page

  /** What the footer regexes captured: the `Email:-` and `Phone no:-` groups. */
  datatype Footer = Footer(emailMatch: Option<string>, phoneMatch: Option<string>)

  /** A listing page as the selectors see it. `logoSrc` is the `src` of the first logo
      image (None when there is no image or no `src`); `websiteLink` is the "Visit
      Website" anchor with its optional `href`; `description` is the listing text;
      `productImages` are the `src`s of the product thumbnails, with `""` for a
      thumbnail without `src`: `urljoin(BASE_URL, None)` is the site itself, and so is
      `UrlJoin("")`. */
  datatype ListingPage = ListingPage(
    heading: Option<string>,
    logoSrc: Option<string>,
    contactTable: Option<seq<seq<Cell>>>,
    websiteLink: Option<Option<string>>,
    footer: Option<Footer>,
    description: Option<string>,
    productImages: seq<string>)

  /** The record `parse_listing_details` returns. */
  datatype Listing = Listing(
    url: string,
    companyName: string,
    logoUrl: Option<string>,
    phoneMain: Option<string>,
    location: Option<string>,
    primaryCategory: Option<string>,
    website: Option<string>,
    email: Option<string>,
    descriptionFull: Option<string>,
    productsAndServices: seq<string>)

  function TableContacts(table: Option<seq<seq<Cell>>>): Contacts {
    if table.Some? then ContactFold(NoContacts, table.value) else NoContacts
  }

  /** The phone after the footer: the footer's phone is used only when the table
      gave none. */
  function PhoneWithFooter(tablePhone: string, footer: Option<Footer>): (p: string)
    ensures tablePhone != NA ==> p == tablePhone
  {
    if footer.Some? && tablePhone == NA && footer.value.phoneMatch.Some? then Strip(footer.value.phoneMatch.value)
    else tablePhone
  }

  function EmailFromFooter(footer: Option<Footer>): string {
    if footer.Some? && footer.value.emailMatch.Some? then Strip(footer.value.emailMatch.value) else NA
  }

  /** The logo `src` resolved against the site, or "N/A" when the page has none. */
  function LogoUrl(src: Option<string>): string {
    if src.Some? && src.value != "" then UrlJoin(src.value) else NA
  }

  /** The "Visit Website" `href`; a link without `href` gives None, no link "N/A". */
  function WebsiteHref(link: Option<Option<string>>): Option<string> {
    if link.Some? then link.value else Some(NA)
  }

  function ProductUrls(images: seq<string>): (r: seq<string>)
    ensures |r| == |images|
  {
    seq(|images|, i requires 0 <= i < |images| => UrlJoin(images[i]))
  }

  /** `parse_listing_details` over a parsed page. */
  function ParseListing(page: ListingPage, url: string): (r: Listing)
    ensures r.url == url
    ensures page.heading.None? ==> r.companyName == NA
    ensures page.heading.Some? ==> r.companyName == Strip(page.heading.value)
    ensures Clean(r.logoUrl) && Clean(r.website) && Clean(r.descriptionFull)
    ensures Clean(r.phoneMain) && Clean(r.location) && Clean(r.primaryCategory) && Clean(r.email)
    ensures TableContacts(page.contactTable).phone != NA ==>
      r.phoneMain == CleanNa(Some(TableContacts(page.contactTable).phone))
    ensures TableContacts(page.contactTable).phone == NA ==>
      if page.footer.Some? && page.footer.value.phoneMatch.Some?
      then r.phoneMain == CleanNa(Some(Strip(page.footer.value.phoneMatch.value)))
      else r.phoneMain == None
    ensures r.location == CleanNa(Some(TableContacts(page.contactTable).location))
    ensures r.primaryCategory == CleanNa(Some(TableContacts(page.contactTable).category))
    ensures r.logoUrl == if page.logoSrc.Some? && page.logoSrc.value != "" then CleanNa(Some(UrlJoin(page.logoSrc.value))) else None
    ensures r.descriptionFull == if page.description.Some? then CleanNa(page.description) else None
    ensures r.website == if page.websiteLink.Some? then CleanNa(page.websiteLink.value) else None
    ensures r.email == if page.footer.Some? && page.footer.value.emailMatch.Some?
      then CleanNa(Some(Strip(page.footer.value.emailMatch.value))) else None
    ensures |r.productsAndServices| == |page.productImages|
    ensures forall i :: 0 <= i < |r.productsAndServices| ==> r.productsAndServices[i] == UrlJoin(page.productImages[i])
  {
    var contacts := TableContacts(page.contactTable);
    var name := if page.heading.Some? then Strip(page.heading.value) else NA;
    var phone := PhoneWithFooter(contacts.phone, page.footer);
    NaIsNa();
    Listing(
      url := url,
      companyName := name,
      logoUrl := CleanNa(Some(LogoUrl(page.logoSrc))),
      phoneMain := CleanNa(Some(phone)),
      location := CleanNa(Some(contacts.location)),
      primaryCategory := CleanNa(Some(contacts.category)),
      website := CleanNa(WebsiteHref(page.websiteLink)),
      email := CleanNa(Some(EmailFromFooter(page.footer))),
      descriptionFull := CleanNa(Some(page.description.GetOr(NA))),
      productsAndServices := ProductUrls(page.productImages))
  }

  // ---------------------------------------------------------------- fetching

  /** A page fetch: the parsed body, or an aiohttp client error (status errors included). */
  datatype Fetch<T> = Fetched(body: T) | ClientError(message: string)

  /** One element of the crawl's result: a parsed listing, or `{url, error}`. */
  datatype ScrapeRecord = Detail(listing: Listing) | FetchFailed(url: string, error: string)

  function RecordUrl(r: ScrapeRecord): string {
    match r
    case Detail(l) => l.url
    case FetchFailed(u, _) => u
  }

  /** `fetch_and_scrape_details`: every link yields exactly one record carrying it. */
  function ScrapeDetails(url: string, fetch: Fetch<ListingPage>): (r: ScrapeRecord)
    ensures RecordUrl(r) == url
    ensures r.FetchFailed? <==> fetch.ClientError?
    ensures fetch.ClientError? ==> r.error == fetch.message
  {
    match fetch
    case Fetched(page) => Detail(ParseListing(page, url))
    case ClientError(msg) => FetchFailed(url, msg)
  }

  // ---------------------------------------------------------------- page count

  /** A search-result page as the selectors see it: the "Page x of N" capture from the
      page text, the `href` of the "End" pagination link, and the `href` of the anchor of
      each result title (None for a title without an anchor, "" for an anchor without
      `href`), absent altogether when there is no result list. */
  datatype SearchPage = SearchPage(
    pageOfTotal: Option<nat>,
    endLinkHref: Option<string>,
    resultTitles: Option<seq<Option<string>>>)

  /** The page number of the End link, when there is one and it names a page. */
  function EndLinkPage(href: Option<string>): Option<nat> {
    if href.Some? then PageNumber(href.value) else None
  }

  /** `get_total_pages`: a client error gives 0; otherwise the "Page x of N" total,
      else the End link's page number, else 1. */
  function TotalPages(fetch: Fetch<SearchPage>): (n: nat)
    ensures fetch.ClientError? ==> n == 0
    ensures fetch.Fetched? && fetch.body.pageOfTotal.Some? ==> n == fetch.body.pageOfTotal.value
    ensures fetch.Fetched? && fetch.body.pageOfTotal.None? ==>
      n == EndLinkPage(fetch.body.endLinkHref).GetOr(1)
  {
    match fetch
    case ClientError(_) => 0
    case Fetched(page) =>
      if page.pageOfTotal.Some? then page.pageOfTotal.value
      else if page.endLinkHref.Some? && PageNumber(page.endLinkHref.value).Some? then PageNumber(page.endLinkHref.value).value
      else 1
  }

  /** An End link written with the site's paginated template gives the page count when
      the page text has no "Page x of N". */
  lemma TotalPagesFromEndLink(page: nat, query: string, titles: Option<seq<Option<string>>>)
    ensures TotalPages(Fetched(SearchPage(None, Some(PaginatedUrl(page, query)), titles))) == page
  {
    PageNumberOfPaginatedUrl(page, query);
  }

  // ---------------------------------------------------------------- links

  /** The elements of `s`, each once, in order of first occurrence (the model's choice
      of iteration order for a Python set). */
  function Dedup(s: seq<string>): (r: seq<string>)
    ensures NoDuplicates(r)
    ensures forall x :: x in r <==> x in s
    decreases |s|
  {
    if |s| == 0 then []
    else
      var rest := Dedup(s[..|s| - 1]);
      assert s == s[..|s| - 1] + [s[|s| - 1]];
      if s[|s| - 1] in rest then rest else rest + [s[|s| - 1]]
  }

  /** A result-title anchor that points into the directory. */
  predicate IsDirectoryHref(title: Option<string>) {
    title.Some? && Contains(title.value, DirectoryMarker)
  }

  /** The resolved links of the directory anchors, in document order. */
  function DirectoryLinks(titles: seq<Option<string>>): (r: seq<string>)
    ensures forall u :: u in r <==> exists i :: 0 <= i < |titles| && IsDirectoryHref(titles[i]) && UrlJoin(titles[i].value) == u
    decreases |titles|
  {
    if |titles| == 0 then []
    else
      var rest := DirectoryLinks(titles[1..]);
      assert forall i :: 0 < i < |titles| ==> titles[i] == titles[1..][i - 1];
      if IsDirectoryHref(titles[0]) then [UrlJoin(titles[0].value)] + rest else rest
  }

  /** `extract_listing_links`: the distinct resolved links of the result-title anchors
      whose `href` contains `/directory/`; nothing when the page has no result list. */
  function ExtractListingLinks(page: SearchPage): (r: seq<string>)
    ensures NoDuplicates(r)
    ensures page.resultTitles.None? ==> r == []
    ensures page.resultTitles.Some? ==> forall u :: u in r <==>
      exists i :: 0 <= i < |page.resultTitles.value| && IsDirectoryHref(page.resultTitles.value[i])
                  && UrlJoin(page.resultTitles.value[i].value) == u
    ensures forall u :: u in r ==> Contains(u, DirectoryMarker)
  {
    if page.resultTitles.None? then []
    else
      var titles := page.resultTitles.value;
      var r := Dedup(DirectoryLinks(titles));
      assert forall u :: u in r ==> Contains(u, DirectoryMarker) by {
        assert DirectoryMarker[0] == '/' && ':' !in DirectoryMarker;
        forall u | u in r
          ensures Contains(u, DirectoryMarker)
        {
          var i :| 0 <= i < |titles| && IsDirectoryHref(titles[i]) && UrlJoin(titles[i].value) == u;
          UrlJoinKeeps(titles[i].value, DirectoryMarker);
        }
      }
      r
  }

  /** `fetch_and_extract_links`: a failed fetch contributes no links. */
  function FetchLinks(fetch: Fetch<SearchPage>): (r: seq<string>)
    ensures fetch.ClientError? ==> r == []
    ensures fetch.Fetched? ==> r == ExtractListingLinks(fetch.body)
  {
    match fetch
    case ClientError(_) => []
    case Fetched(page) => ExtractListingLinks(page)
  }

  // ---------------------------------------------------------------- the crawl

  /** `min(total, limit) if limit else total`: a missing or zero limit means no limit. */
  function EffectivePageCount(total: nat, limit: Option<int>): (n: int)
    ensures limit.None? || limit == Some(0) ==> n == total
    ensures limit.Some? && limit.value != 0 ==> n <= total && n <= limit.value && (n == total || n == limit.value)
  {
    if limit.Some? && limit.value != 0 then (if limit.value < total then limit.value else total) else total
  }

  /** The links of every page, in page order, duplicates kept. */
  function CollectLinks(searchPage: string -> Fetch<SearchPage>, urls: seq<string>): (r: seq<string>)
    ensures forall u :: u in r <==> exists k :: 0 <= k < |urls| && u in FetchLinks(searchPage(urls[k]))
    decreases |urls|
  {
    if |urls| == 0 then []
    else
      var rest := CollectLinks(searchPage, urls[1..]);
      assert forall k :: 0 < k < |urls| ==> urls[k] == urls[1..][k - 1];
      FetchLinks(searchPage(urls[0])) + rest
  }

  /** The site as the crawler sees it: what each GET of a search or listing URL gives. */
  datatype Web = Web(searchPage: string -> Fetch<SearchPage>, listingPage: string -> Fetch<ListingPage>)

  /** The pages the crawl visits for a query and a page limit. */
  function CrawledPages(query: string, limit: Option<int>, web: Web): seq<string> {
    var total := TotalPages(web.searchPage(SearchUrl(query)));
    if total == 0 then [] else PageUrls(query, EffectivePageCount(total, limit))
  }

  /** A crawl of `pages` found link `u` on one of them. */
  ghost predicate FoundOn(searchPage: string -> Fetch<SearchPage>, pages: seq<string>, u: string) {
    exists k :: 0 <= k < |pages| && u in FetchLinks(searchPage(pages[k]))
  }

  /** The distinct links of all crawled pages (the `all_links` set). */
  function CrawlLinks(query: string, limit: Option<int>, web: Web): (r: seq<string>)
    ensures NoDuplicates(r)
    ensures forall u :: u in r <==> FoundOn(web.searchPage, CrawledPages(query, limit, web), u)
    ensures forall u :: u in r ==> Contains(u, DirectoryMarker)
  {
    var pages := CrawledPages(query, limit, web);
    var r := Dedup(CollectLinks(web.searchPage, pages));
    assert forall u :: u in r ==> Contains(u, DirectoryMarker) by {
      forall u | u in r
        ensures Contains(u, DirectoryMarker)
      {
        var k :| 0 <= k < |pages| && u in FetchLinks(web.searchPage(pages[k]));
      }
    }
    r
  }

  /** The detail scrape of each link, in link order. */
  function ScrapeAll(links: seq<string>, listingPage: string -> Fetch<ListingPage>): (r: seq<ScrapeRecord>)
    ensures |r| == |links|
    ensures forall i :: 0 <= i < |r| ==> RecordUrl(r[i]) == links[i]
    ensures forall i :: 0 <= i < |r| ==> r[i] == ScrapeDetails(links[i], listingPage(links[i]))
  {
    seq(|links|, i requires 0 <= i < |links| => ScrapeDetails(links[i], listingPage(links[i])))
  }

  /** Some record carries url `u`. */
  ghost predicate HasRecordFor(r: seq<ScrapeRecord>, u: string) {
    exists i :: 0 <= i < |r| && RecordUrl(r[i]) == u
  }

  /** `main_scraper` with the concurrent fetches taken one after another: no pages
      means no records; otherwise one record per distinct link found on pages
      1..effective count, each the detail scrape of that link. */
  function MainScraper(query: string, limit: Option<int>, web: Web): (r: seq<ScrapeRecord>)
    ensures TotalPages(web.searchPage(SearchUrl(query))) == 0 ==> r == []
    ensures forall i, j :: 0 <= i < j < |r| ==> RecordUrl(r[i]) != RecordUrl(r[j])
    ensures forall i :: 0 <= i < |r| ==> r[i] == ScrapeDetails(RecordUrl(r[i]), web.listingPage(RecordUrl(r[i])))
    ensures forall u :: HasRecordFor(r, u) <==> FoundOn(web.searchPage, CrawledPages(query, limit, web), u)
    ensures forall i :: 0 <= i < |r| ==> Contains(RecordUrl(r[i]), DirectoryMarker)
  {
    var links := CrawlLinks(query, limit, web);
    var r := ScrapeAll(links, web.listingPage);
    assert forall u :: HasRecordFor(r, u) <==> u in links by {
      forall u
        ensures HasRecordFor(r, u) <==> u in links
      {
        if u in links {
          var i :| 0 <= i < |links| && links[i] == u;
          assert RecordUrl(r[i]) == u;
        }
      }
    }
    r
  }
}

=== FILE: scraper_urls.dfy ===
/** The URLs the scraper builds and reads: the search-page templates, resolution of
    links against the site, and the `page:N` number of a pagination link. */
module ScraperUrls {
  import opened Wrappers
  import opened Text
  import opened Seqs

  const BaseUrl := "https://www.2merkato.com"
  const DirectoryMarker := "/directory/"
  const PageMarker := "page:"
  /** The part of the paginated search URL before `page:`. */
  const SearchPath := "https" + AfterScheme
  const AfterScheme := "://www.2merkato.com/search/newest-first"
  const PaginatedPrefix := SearchPath + "/"
  const QuerySuffix := "?searchphrase=all&searchword="

  /** The first result page; the query is inserted as is, without URL encoding. */
  function SearchUrl(query: string): string {
    SearchPath + (QuerySuffix + query)
  }

  /** Result page `page` of a query. */
  function PaginatedUrl(page: nat, query: string): string {
    PaginatedPrefix + PageSegment(page, query)
  }

  /** The part of a paginated URL from `page:` on. */
  function PageSegment(page: nat, query: string): string {
    PageMarker + (NatToString(page) + (QuerySuffix + query))
  }

  /** `urllib.parse.scheme_chars`: ASCII letters, digits, `+`, `-` and `.`. */
  predicate IsSchemeChar(c: char) {
    'a' <= c <= 'z' || 'A' <= c <= 'Z' || IsDigit(c) || c == '+' || c == '-' || c == '.'
  }

  /** The length of the run of scheme characters at the start of `s`. */
  function SchemeRun(s: string): (n: nat)
    ensures n <= |s|
    ensures forall i :: 0 <= i < n ==> IsSchemeChar(s[i])
    ensures n == |s| || !IsSchemeChar(s[n])
    decreases |s|
  {
    if |s| > 0 && IsSchemeChar(s[0]) then 1 + SchemeRun(s[1..]) else 0
  }

  /** `urlsplit` finds a scheme: the first `:` ends a non-empty run of scheme
      characters that starts with an ASCII letter. */
  predicate HasScheme(href: string) {
    var n := SchemeRun(href);
    0 < n < |href| && href[n] == ':' && ('a' <= href[0] <= 'z' || 'A' <= href[0] <= 'Z')
  }

  /** The scheme `urlsplit` finds, lower-cased. */
  function SchemeOf(href: string): string
    requires HasScheme(href)
  {
    Lower(href[..SchemeRun(href)])
  }

  /** What follows the scheme's `:`. */
  function AfterSchemeOf(href: string): (rest: string)
    requires HasScheme(href)
    ensures href == href[..SchemeRun(href)] + ":" + rest
  {
    var n := SchemeRun(href);
    assert href == href[..n] + ":" + href[n + 1..];
    href[n + 1..]
  }

  /** A reference with no scheme resolved against the site: scheme-relative,
      root-relative, query or fragment only, and plain relative. */
  function Resolve(href: string): string {
    if "//" <= href then "https:" + href
    else if href == "" then BaseUrl
    else if href[0] == '/' || href[0] == '?' || href[0] == '#' then BaseUrl + href
    else BaseUrl + "/" + href
  }

  /** `urljoin(BASE_URL, href)`: a reference whose scheme is not the site's `https`
      (`http:`, `data:`, `mailto:`, ...) is returned unchanged; an `https` reference
      with an authority is kept with its scheme lower-cased; anything else is
      resolved against the site. */
  function UrlJoin(href: string): string {
    if HasScheme(href) then
      if SchemeOf(href) != "https" then href else Resolve(AfterSchemeOf(href))
    else Resolve(href)
  }

  /** The longest run of digits at the start of `s`. */
  function DigitRun(s: string): (r: string)
    ensures r <= s
    ensures forall i :: 0 <= i < |r| ==> IsDigit(r[i])
    ensures |r| == |s| || !IsDigit(s[|r|])
    decreases |s|
  {
    if |s| > 0 && IsDigit(s[0]) then [s[0]] + DigitRun(s[1..]) else ""
  }

  /** `s` has a `page:` marker followed by a digit at its start. */
  predicate MarkerAt(s: string) {
    PageMarker <= s && |s| > |PageMarker| && IsDigit(s[|PageMarker|])
  }

  /** `re.search(r'page:(\d+)', href)`: the number after the leftmost `page:` that is
      followed by at least one digit. */
  function PageNumber(href: string): Option<nat>
    decreases |href|
  {
    if |href| == 0 then None
    else if MarkerAt(href) then Some(DigitsValue(DigitRun(href[|PageMarker|..])))
    else PageNumber(href[1..])
  }

  /** `pa` starts at index `i` of `x`. */
  predicate PaAt(x: string, i: int) {
    0 <= i && i + 1 < |x| && x[i] == 'p' && x[i + 1] == 'a'
  }

  /** No `pa` starts anywhere in `x`, and `x` does not end in `p`, so no `page:`
      marker can start inside it. */
  predicate NoMarkerStart(x: string) {
    (|x| == 0 || x[|x| - 1] != 'p') && forall i :: 0 <= i < |x| ==> !PaAt(x, i)
  }

  /** The page-number search skips a prefix in which no marker starts. */
  lemma {:induction false} PageNumberSkips(x: string, rest: string)
    requires NoMarkerStart(x)
    ensures PageNumber(x + rest) == PageNumber(rest)
    decreases |x|
  {
    if |x| == 0 {
      assert x + rest == rest;
    } else {
      var s := x + rest;
      assert s[0] == x[0];
      assert |x| > 1 ==> s[1] == x[1];
      assert !PaAt(x, 0);
      if |s| >= |PageMarker| {
        assert s[..|PageMarker|][0] == s[0] && s[..|PageMarker|][1] == s[1];
      }
      assert !MarkerAt(s);
      assert s[1..] == x[1..] + rest;
      assert NoMarkerStart(x[1..]) by {
        forall i | 0 <= i < |x[1..]|
          ensures !PaAt(x[1..], i)
        {
          assert !PaAt(x, i + 1);
        }
      }
      PageNumberSkips(x[1..], rest);
    }
  }

  /** The digit run stops at the first non-digit. */
  lemma {:induction false} DigitRunOfDigits(d: string, rest: string)
    requires forall i :: 0 <= i < |d| ==> IsDigit(d[i])
    requires |rest| == 0 || !IsDigit(rest[0])
    ensures DigitRun(d + rest) == d
    decreases |d|
  {
    if |d| > 0 {
      assert (d + rest)[1..] == d[1..] + rest;
      DigitRunOfDigits(d[1..], rest);
    } else {
      assert d + rest == rest;
    }
  }

  /** The only `p` of the paginated prefix is the one in `https`. */
  lemma PaginatedPrefixHasNoMarker()
    ensures NoMarkerStart(PaginatedPrefix)
  {
    assert 'p' !in AfterScheme;
    forall i | 0 <= i < |PaginatedPrefix|
      ensures !PaAt(PaginatedPrefix, i)
    {
      if 5 <= i < |SearchPath| {
        assert PaginatedPrefix[i] == AfterScheme[i - 5];
      }
    }
  }

  /** Round trip: the End-link page parse reads back the page number that the
      paginated URL template writes, whatever the query. */
  lemma PageNumberOfPaginatedUrl(page: nat, query: string)
    ensures PageNumber(PaginatedUrl(page, query)) == Some(page)
  {
    var digits := NatToString(page);
    var tail := QuerySuffix + query;
    var rest := PageSegment(page, query);
    PaginatedPrefixHasNoMarker();
    PageNumberSkips(PaginatedPrefix, rest);
    assert rest[|PageMarker|..] == digits + tail;
    assert rest[|PageMarker|] == digits[0];
    assert MarkerAt(rest);
    DigitRunOfDigits(digits, tail);
    DecimalRoundTrip(page);
  }

  /** Resolving a reference with no scheme keeps every character of it. */
  lemma ResolveKeeps(href: string, needle: string)
    requires Contains(href, needle)
    ensures Contains(Resolve(href), needle)
  {
    if "//" <= href {
      ContainsInSuffix("https:", href, needle);
    } else if href == "" {
    } else if href[0] == '/' || href[0] == '?' || href[0] == '#' {
      ContainsInSuffix(BaseUrl, href, needle);
    } else {
      ContainsInSuffix(BaseUrl + "/", href, needle);
      assert BaseUrl + "/" + href == (BaseUrl + "/") + href;
    }
  }

  /** An infix with a `/` and no `:` cannot reach into a scheme, so it lies in the
      part after the scheme's `:`. */
  lemma AfterSchemeKeeps(href: string, needle: string)
    requires HasScheme(href) && Contains(href, needle)
    requires '/' in needle && ':' !in needle
    ensures Contains(AfterSchemeOf(href), needle)
  {
    var n := SchemeRun(href);
    ContainsIff(href, needle);
    var i :| OccursAt(href, needle, i);
    OccursPastScheme(href, needle, i);
    OccursInSuffix(href, needle, i, n + 1);
    ContainsIff(AfterSchemeOf(href), needle);
  }

  /** An occurrence of an infix with a `/` and no `:` starts after the scheme's `:`. */
  lemma OccursPastScheme(href: string, needle: string, i: int)
    requires HasScheme(href) && OccursAt(href, needle, i)
    requires '/' in needle && ':' !in needle
    ensures SchemeRun(href) < i
  {
    var n := SchemeRun(href);
    forall k | 0 <= k < |needle|
      ensures href[i + k] == needle[k] && href[i + k] != ':'
    {
      OccursAtIndex(href, needle, i, k);
    }
    var m :| 0 <= m < |needle| && needle[m] == '/';
    assert href[i + m] == '/';
    assert n < i + m;
    assert href[i + (n - i)] == ':';
  }

  /** An occurrence at or after `j` is an occurrence in the suffix from `j`. */
  lemma OccursInSuffix(hay: string, needle: string, i: int, j: int)
    requires OccursAt(hay, needle, i) && 0 <= j <= i
    ensures OccursAt(hay[j..], needle, i - j)
  {
    assert hay[j..][i - j..i - j + |needle|] == hay[i..i + |needle|];
  }

  /** Resolving against the site keeps every infix of the reference that has a `/`
      and no `:`, such as `/directory/`. */
  lemma UrlJoinKeeps(href: string, needle: string)
    requires Contains(href, needle)
    requires '/' in needle && ':' !in needle
    ensures Contains(UrlJoin(href), needle)
  {
    if HasScheme(href) {
      if SchemeOf(href) == "https" {
        AfterSchemeKeeps(href, needle);
        ResolveKeeps(AfterSchemeOf(href), needle);
      }
    } else {
      ResolveKeeps(href, needle);
    }
  }

  /** The scheme run is exactly the scheme characters before the first other one. */
  lemma {:induction false} SchemeRunIs(s: string, n: nat)
    requires n <= |s| && (n == |s| || !IsSchemeChar(s[n]))
    requires forall i :: 0 <= i < n ==> IsSchemeChar(s[i])
    ensures SchemeRun(s) == n
    decreases n
  {
    if n > 0 {
      SchemeRunIs(s[1..], n - 1);
    }
  }

  /** A reference `scheme:rest` is resolved after its scheme when the scheme is
      `https` in any case, and returned unchanged for every other scheme. */
  lemma UrlJoinWithScheme(scheme: string, rest: string)
    requires |scheme| > 0 && ('a' <= scheme[0] <= 'z' || 'A' <= scheme[0] <= 'Z')
    requires forall i :: 0 <= i < |scheme| ==> IsSchemeChar(scheme[i])
    ensures UrlJoin(scheme + ":" + rest) == if Lower(scheme) == "https" then Resolve(rest) else scheme + ":" + rest
  {
    var href := scheme + ":" + rest;
    SchemeRunIs(href, |scheme|);
    assert href[..|scheme|] == scheme;
    assert AfterSchemeOf(href) == rest;
  }

  /** A `data:` image source is not resolved at all. */
  lemma UrlJoinKeepsData(payload: string)
    ensures UrlJoin("data:" + payload) == "data:" + payload
  {
    UrlJoinWithScheme("data", payload);
    assert "data" + ":" + payload == "data:" + payload;
    assert |Lower("data")| == 4;
  }

  /** The URL of result page `page`: page 1 uses the plain template. */
  function PageUrl(page: nat, query: string): string {
    if page == 1 then SearchUrl(query) else PaginatedUrl(page, query)
  }

  /** One URL for each page 1..count, in order (none for a count below one). */
  function PageUrls(query: string, count: int): (r: seq<string>)
    ensures |r| == if count < 0 then 0 else count
    ensures forall i :: 0 <= i < |r| ==> r[i] == PageUrl(i + 1, query)
  {
    if count <= 0 then [] else seq(count, i requires 0 <= i < count => PageUrl(i + 1, query))
  }

  /** The first page's URL is none of the paginated ones. */
  lemma SearchUrlNotPaginated(page: nat, query: string)
    ensures SearchUrl(query) != PaginatedUrl(page, query)
  {
    var k := |SearchPath|;
    assert SearchUrl(query)[k] == '?';
    assert PaginatedUrl(page, query)[k] == '/';
  }

  /** Different pages have different URLs. */
  lemma PageUrlDistinct(a: nat, b: nat, query: string)
    requires 1 <= a < b
    ensures PageUrl(a, query) != PageUrl(b, query)
  {
    PageNumberOfPaginatedUrl(b, query);
    if a == 1 {
      SearchUrlNotPaginated(b, query);
    } else {
      PageNumberOfPaginatedUrl(a, query);
    }
  }

  /** The URL list never repeats a URL. */
  lemma PageUrlsDistinct(query: string, count: int)
    ensures NoDuplicates(PageUrls(query, count))
  {
    var urls := PageUrls(query, count);
    forall i, j | 0 <= i < j < |urls|
      ensures urls[i] != urls[j]
    {
      var a, b := PageUrl(i + 1, query), PageUrl(j + 1, query);
      PageUrlDistinct(i + 1, j + 1, query);
      assert a != b;
      assert urls[i] == a && urls[j] == b;
    }
  }

}

=== FILE: search_route.dfy ===
/** The `/search` and `/stats` handlers of the API: keyword normalisation, the
    request counters, the cache hit/miss branch, result truncation and the
    insert-if-absent save. Redis and the database are explicit state. */
module SearchRoute {
  import opened Wrappers
  import opened Text
  import opened ScraperUrls
  import opened Scraper
  import opened Ranking

  /** `max_pages_limit` the handler passes to the scraper. */
  const ScrapePageLimit := 3
  /** Number of keywords `/stats` reports. */
  const TopKeywordCount := 10

  const CacheSource := "cache"
  const DatabaseSource := "database"

  /** A row of the `companies` table, built with `item.get(...)` from one scraped record:
      an error record has only its url, every other column is NULL. */
  datatype Company = Company(
    companyName: Option<string>,
    url: string,
    email: Option<string>,
    website: Option<string>,
    location: Option<string>,
    logoUrl: Option<string>,
    phoneMain: Option<string>,
    descriptionFull: Option<string>,
    primaryCategory: Option<string>,
    productsAndServices: Option<seq<string>>)

  function CompanyOf(item: ScrapeRecord): (c: Company)
    ensures c.url == RecordUrl(item)
    ensures item.FetchFailed? <==> c.companyName.None?
  {
    match item
    case Detail(l) =>
      Company(Some(l.companyName), l.url, l.email, l.website, l.location, l.logoUrl,
              l.phoneMain, l.descriptionFull, l.primaryCategory, Some(l.productsAndServices))
    case FetchFailed(u, _) =>
      Company(None, u, None, None, None, None, None, None, None, None)
  }

  function Urls(rows: seq<Company>): set<string> {
    set c | c in rows :: c.url
  }

  function ItemUrls(items: seq<ScrapeRecord>): set<string> {
    set x | x in items :: RecordUrl(x)
  }

  lemma UrlsAppend(rows: seq<Company>, c: Company)
    ensures Urls(rows + [c]) == Urls(rows) + {c.url}
  {
    assert c in rows + [c];
    forall u | u in Urls(rows)
      ensures u in Urls(rows + [c])
    {
      var d :| d in rows && d.url == u;
      assert d in rows + [c];
    }
  }

  lemma ItemUrlsCons(items: seq<ScrapeRecord>)
    requires |items| > 0
    ensures ItemUrls(items) == {RecordUrl(items[0])} + ItemUrls(items[1..])
  {
    assert items == [items[0]] + items[1..];
    forall u | u in ItemUrls(items[1..])
      ensures u in ItemUrls(items)
    {
      var x :| x in items[1..] && RecordUrl(x) == u;
      assert x in items;
    }
  }

  /** `save_search_result_sqlalchemy`: every item whose url is not yet stored becomes a
      new row. The session autoflushes before each `select`, so a url added earlier in
      the same batch counts as stored. */
  function SaveNew(rows: seq<Company>, items: seq<ScrapeRecord>): (r: seq<Company>)
    decreases |items|
  {
    if |items| == 0 then rows
    else
      var u := RecordUrl(items[0]);
      SaveNew(if u in Urls(rows) then rows else rows + [CompanyOf(items[0])], items[1..])
  }

  /** Stored rows are never modified: the old table is a prefix of the new one. */
  lemma {:induction false} SaveNewKeepsRows(rows: seq<Company>, items: seq<ScrapeRecord>)
    ensures |rows| <= |SaveNew(rows, items)| && SaveNew(rows, items)[..|rows|] == rows
    decreases |items|
  {
    if |items| > 0 {
      var x := items[0];
      if RecordUrl(x) in Urls(rows) {
        SaveNewKeepsRows(rows, items[1..]);
      } else {
        var next := rows + [CompanyOf(x)];
        SaveNewKeepsRows(next, items[1..]);
        var r := SaveNew(rows, items);
        assert r[..|rows|] == r[..|next|][..|rows|];
      }
    }
  }

  /** After the save, the stored urls are the old ones plus every item's url. */
  lemma {:induction false} SaveNewUrls(rows: seq<Company>, items: seq<ScrapeRecord>)
    ensures Urls(SaveNew(rows, items)) == Urls(rows) + ItemUrls(items)
    decreases |items|
  {
    if |items| > 0 {
      var x := items[0];
      ItemUrlsCons(items);
      if RecordUrl(x) in Urls(rows) {
        SaveNewUrls(rows, items[1..]);
      } else {
        UrlsAppend(rows, CompanyOf(x));
        SaveNewUrls(rows + [CompanyOf(x)], items[1..]);
      }
    }
  }

  /** Every new row has a url that was not stored before, and no two new rows share
      a url. */
  lemma {:induction false} SaveNewFresh(rows: seq<Company>, items: seq<ScrapeRecord>)
    ensures |rows| <= |SaveNew(rows, items)|
    ensures forall i :: |rows| <= i < |SaveNew(rows, items)| ==> SaveNew(rows, items)[i].url !in Urls(rows)
    ensures forall i, j :: |rows| <= i < j < |SaveNew(rows, items)| ==> SaveNew(rows, items)[i].url != SaveNew(rows, items)[j].url
    decreases |items|
  {
    SaveNewKeepsRows(rows, items);
    if |items| > 0 {
      var x := items[0];
      if RecordUrl(x) in Urls(rows) {
        SaveNewFresh(rows, items[1..]);
      } else {
        var next := rows + [CompanyOf(x)];
        var r := SaveNew(rows, items);
        SaveNewFresh(next, items[1..]);
        SaveNewKeepsRows(next, items[1..]);
        UrlsAppend(rows, CompanyOf(x));
        assert r[|rows|] == r[..|next|][|rows|] == CompanyOf(x);
        forall i | |rows| <= i < |r|
          ensures r[i].url !in Urls(rows)
        {
          if i > |rows| {
            assert r[i].url !in Urls(next);
          }
        }
        forall i, j | |rows| <= i < j < |r|
          ensures r[i].url != r[j].url
        {
          if i == |rows| {
            assert r[j].url !in Urls(next);
          }
        }
      }
    }
  }

  /** Every new row is the row built from one of the items. */
  lemma {:induction false} SaveNewFromItems(rows: seq<Company>, items: seq<ScrapeRecord>)
    ensures |rows| <= |SaveNew(rows, items)|
    ensures forall i :: |rows| <= i < |SaveNew(rows, items)| ==>
      exists x :: x in items && SaveNew(rows, items)[i] == CompanyOf(x)
    decreases |items|
  {
    SaveNewKeepsRows(rows, items);
    if |items| > 0 {
      var x := items[0];
      var r := SaveNew(rows, items);
      var next := if RecordUrl(x) in Urls(rows) then rows else rows + [CompanyOf(x)];
      SaveNewFromItems(next, items[1..]);
      SaveNewKeepsRows(next, items[1..]);
      forall i | |rows| <= i < |r|
        ensures exists y :: y in items && r[i] == CompanyOf(y)
      {
        if i < |next| {
          assert r[i] == r[..|next|][i] == CompanyOf(x);
          assert x in items;
        } else {
          var y :| y in items[1..] && r[i] == CompanyOf(y);
          assert y in items;
        }
      }
    }
  }

  /** Saving items whose urls are all stored changes nothing. */
  lemma {:induction false} SaveKnownUnchanged(rows: seq<Company>, items: seq<ScrapeRecord>)
    requires ItemUrls(items) <= Urls(rows)
    ensures SaveNew(rows, items) == rows
    decreases |items|
  {
    if |items| > 0 {
      ItemUrlsCons(items);
      SaveKnownUnchanged(rows, items[1..]);
    }
  }

  /** Saving the same batch twice stores nothing the first save did not. */
  lemma SaveNewIdempotent(rows: seq<Company>, items: seq<ScrapeRecord>)
    ensures SaveNew(SaveNew(rows, items), items) == SaveNew(rows, items)
  {
    SaveNewUrls(rows, items);
    SaveKnownUnchanged(SaveNew(rows, items), items);
  }

  /** What the handlers read and write: the Redis counters, the keyword ranking, the
      keyword cache and the `companies` table. */
  datatype Backend = Backend(
    totalRequests: nat,
    searchCounts: map<string, nat>,
    rankings: seq<Scored>,
    cache: map<string, seq<ScrapeRecord>>,
    companies: seq<Company>)

  /** `r.get(...)` on a counter: 0 when the key is absent. */
  function Count(counts: map<string, nat>, keyword: string): nat {
    if keyword in counts then counts[keyword] else 0
  }

  datatype SearchResponse = SearchResponse(source: string, results: seq<ScrapeRecord>)

  datatype Outcome = Outcome(backend: Backend, response: SearchResponse)

  /** `term.lower().strip()`: the lowered term without the whitespace around it. */
  function Keyword(term: string): (k: string)
    ensures NoSpaceAtEnds(k)
    ensures exists i :: SpaceAround(Lower(term), k, i)
  {
    Strip(Lower(term))
  }

  /** A padded, capitalised term becomes the bare lower-case word. */
  lemma KeywordExample()
    ensures Keyword("  Bank ") == "bank"
  {
    var low := Lower("  Bank ");
    assert low == "  bank ";
    assert low[2..6] == "bank";
    StripUnique(low, "bank", 2);
  }

  /** The keyword has no upper-case letter left. */
  lemma KeywordLowercase(term: string)
    ensures forall i :: 0 <= i < |Keyword(term)| ==> !IsUpper(Keyword(term)[i])
  {
    var k := Keyword(term);
    var low := Lower(term);
    var j :| SpaceAround(low, k, j);
    forall i | 0 <= i < |k|
      ensures !IsUpper(k[i])
    {
      OccursAtIndex(low, k, j, i);
    }
  }

  /** Python's `s[:limit]`: everything for None, at most `limit` entries for a
      non-negative limit, all but the last `-limit` entries for a negative one. */
  function TakePrefix<T>(s: seq<T>, limit: Option<int>): (r: seq<T>)
    ensures r <= s
    ensures limit.None? ==> r == s
    ensures limit.Some? && limit.value >= 0 ==>
      |r| == if limit.value < |s| then limit.value else |s|
    ensures limit.Some? && limit.value < 0 ==>
      |r| == if |s| + limit.value > 0 then |s| + limit.value else 0
  {
    if limit.None? then s
    else if limit.value >= 0 then (if limit.value < |s| then s[..limit.value] else s)
    else if |s| + limit.value > 0 then s[..|s| + limit.value]
    else []
  }

  /** `get_cache(keyword)` is truthy: present and not an empty list. */
  predicate CacheHit(cache: map<string, seq<ScrapeRecord>>, keyword: string) {
    keyword in cache && |cache[keyword]| > 0
  }

  /** The counters `increment_total_requests` and `increment_keyword_search` bump. */
  function CountRequest(b: Backend, keyword: string): (c: Backend)
    ensures c.totalRequests == b.totalRequests + 1
    ensures Count(c.searchCounts, keyword) == Count(b.searchCounts, keyword) + 1
    ensures forall k :: k != keyword ==> Count(c.searchCounts, k) == Count(b.searchCounts, k)
    ensures ScoreOf(c.rankings, keyword) == ScoreOf(b.rankings, keyword) + 1
    ensures forall k :: k != keyword ==> ScoreOf(c.rankings, k) == ScoreOf(b.rankings, k)
    ensures c.cache == b.cache && c.companies == b.companies
  {
    b.(totalRequests := b.totalRequests + 1,
       searchCounts := b.searchCounts[keyword := Count(b.searchCounts, keyword) + 1],
       rankings := Bump(b.rankings, keyword))
  }

  /** The `/search` handler. */
  function Search(b: Backend, term: string, limit: Option<int>, web: Web): (o: Outcome)
    ensures o.backend.totalRequests == b.totalRequests + 1
    ensures Count(o.backend.searchCounts, Keyword(term)) == Count(b.searchCounts, Keyword(term)) + 1
    ensures forall k :: k != Keyword(term) ==> Count(o.backend.searchCounts, k) == Count(b.searchCounts, k)
    ensures o.backend.rankings == Bump(b.rankings, Keyword(term))
    ensures CacheHit(b.cache, Keyword(term)) ==>
      o.response.source == CacheSource &&
      o.response.results == TakePrefix(b.cache[Keyword(term)], limit) &&
      o.backend.cache == b.cache && o.backend.companies == b.companies
    ensures !CacheHit(b.cache, Keyword(term)) ==>
      var scraped := MainScraper(Keyword(term), Some(ScrapePageLimit), web);
      o.response.source == DatabaseSource &&
      o.response.results == TakePrefix(scraped, limit) &&
      o.backend.cache == b.cache[Keyword(term) := scraped] &&
      o.backend.companies == SaveNew(b.companies, scraped)
    ensures limit.Some? && limit.value >= 0 ==> |o.response.results| <= limit.value
  {
    var keyword := Keyword(term);
    var counted := CountRequest(b, keyword);
    assert counted.cache == b.cache && counted.companies == b.companies;
    if CacheHit(counted.cache, keyword) then
      Outcome(counted, SearchResponse(CacheSource, TakePrefix(counted.cache[keyword], limit)))
    else
      var scraped := MainScraper(keyword, Some(ScrapePageLimit), web);
      var stored := counted.(cache := counted.cache[keyword := scraped],
                             companies := SaveNew(counted.companies, scraped));
      Outcome(stored, SearchResponse(DatabaseSource, TakePrefix(scraped, limit)))
  }

  /** The counters agree: the ranking lists each keyword once, with the number of
      times it was searched. */
  ghost predicate CountersAgree(b: Backend) {
    DistinctKeywords(b.rankings) &&
    forall k :: ScoreOf(b.rankings, k) == Count(b.searchCounts, k)
  }

  lemma SearchKeepsCountersAgree(b: Backend, term: string, limit: Option<int>, web: Web)
    requires CountersAgree(b)
    ensures CountersAgree(Search(b, term, limit, web).backend)
  {
    var o := Search(b, term, limit, web);
    BumpKeepsAgree(b, o.backend, Keyword(term));
  }

  /** Bumping one keyword's counter and its score together keeps the counters in
      agreement. */
  lemma BumpKeepsAgree(b: Backend, c: Backend, keyword: string)
    requires CountersAgree(b)
    requires c.rankings == Bump(b.rankings, keyword)
    requires Count(c.searchCounts, keyword) == Count(b.searchCounts, keyword) + 1
    requires forall k :: k != keyword ==> Count(c.searchCounts, k) == Count(b.searchCounts, k)
    ensures CountersAgree(c)
  {
    BumpKeepsDistinct(b.rankings, keyword);
    forall k
      ensures ScoreOf(c.rankings, k) == Count(c.searchCounts, k)
    {
      if k != keyword {
        assert ScoreOf(c.rankings, k) == ScoreOf(b.rankings, k);
      }
    }
  }

  /** A second search for a keyword whose first search scraped something is answered
      from the cache, with the same records. */
  lemma RepeatSearchHitsCache(b: Backend, term: string, again: string, limit: Option<int>, web: Web)
    ensures var first := Search(b, term, limit, web);
      var second := Search(first.backend, again, limit, web);
      (!CacheHit(b.cache, Keyword(term)) &&
       |MainScraper(Keyword(term), Some(ScrapePageLimit), web)| > 0 &&
       Keyword(again) == Keyword(term)) ==>
      second.response.source == CacheSource &&
      second.response.results == first.response.results &&
      second.backend.companies == first.backend.companies
  {
  }

  datatype KeywordCount = KeywordCount(keyword: string, count: nat)

  datatype StatsResponse = StatsResponse(totalRequests: nat, topKeywords: seq<KeywordCount>)

  function AsCounts(t: seq<Scored>): (r: seq<KeywordCount>)
    ensures |r| == |t|
    ensures forall i :: 0 <= i < |t| ==> r[i] == KeywordCount(t[i].keyword, t[i].score)
  {
    seq(|t|, i requires 0 <= i < |t| => KeywordCount(t[i].keyword, t[i].score))
  }

  /** `get_top_keywords(limit)`: the entries `zrevrange(0, limit - 1)` returns, as
      keyword/count pairs. */
  function TopCounts(r: seq<Scored>, limit: int): (c: seq<KeywordCount>)
    ensures |c| == |RevRange(r, limit)|
    ensures forall e :: e in c ==> Scored(e.keyword, e.count) in r
  {
    var t := RevRange(r, limit);
    var c := AsCounts(t);
    assert forall e :: e in c ==> Scored(e.keyword, e.count) in r by {
      forall e | e in c
        ensures Scored(e.keyword, e.count) in r
      {
        var i :| 0 <= i < |t| && c[i] == e;
        assert Scored(e.keyword, e.count) == t[i];
        assert t[i] in multiset(t);
      }
    }
    c
  }

  /** The `/stats` handler: the request total and the first ten entries of the
      keyword ranking. */
  function Stats(b: Backend): (s: StatsResponse)
    ensures s.totalRequests == b.totalRequests
    ensures |s.topKeywords| == if TopKeywordCount < |b.rankings| then TopKeywordCount else |b.rankings|
    ensures forall e :: e in s.topKeywords ==> Scored(e.keyword, e.count) in b.rankings
  {
    StatsResponse(b.totalRequests, TopCounts(b.rankings, TopKeywordCount))
  }

  /** The reported keywords are the range read back, as keyword/count pairs. */
  lemma StatsIsRange(b: Backend)
    ensures Stats(b).topKeywords == AsCounts(RevRange(b.rankings, TopKeywordCount))
  {
  }

  /** The pairs of a range come out highest count first. */
  lemma RangeCountsOrdered(r: seq<Scored>, limit: int)
    ensures forall i, j :: 0 <= i < j < |AsCounts(RevRange(r, limit))| ==>
      AsCounts(RevRange(r, limit))[i].count >= AsCounts(RevRange(r, limit))[j].count
  {
    var t := RevRange(r, limit);
    var s := AsCounts(t);
    RevRangeSorted(r, limit);
    SortedPairwise(t);
    forall i, j | 0 <= i < j < |s|
      ensures s[i].count >= s[j].count
    {
      assert ListedFirst(t[i], t[j]);
    }
  }

  /** No entry a range leaves out has a higher score than a pair it returns. */
  lemma RangeCountsComplete(r: seq<Scored>, limit: int)
    ensures forall e, y :: (e in AsCounts(RevRange(r, limit)) && y in r && y !in RevRange(r, limit)) ==>
      e.count >= y.score
  {
    var t := RevRange(r, limit);
    var s := AsCounts(t);
    RevRangeComplete(r, limit);
    forall e, y | e in s && y in r && y !in t
      ensures e.count >= y.score
    {
      var i :| 0 <= i < |t| && s[i] == e;
      assert t[i] in t;
      assert ListedFirst(t[i], y);
    }
  }

  /** `/stats` lists keywords highest count first. */
  lemma StatsOrdered(b: Backend)
    ensures forall i, j :: 0 <= i < j < |Stats(b).topKeywords| ==>
      Stats(b).topKeywords[i].count >= Stats(b).topKeywords[j].count
  {
    StatsIsRange(b);
    RangeCountsOrdered(b.rankings, TopKeywordCount);
  }

  /** No ranked entry `/stats` leaves out has a higher count than one it lists. */
  lemma StatsComplete(b: Backend)
    ensures forall e, y ::
      (e in Stats(b).topKeywords && y in b.rankings && y !in RevRange(b.rankings, TopKeywordCount)) ==>
      e.count >= y.score
  {
    StatsIsRange(b);
    RangeCountsComplete(b.rankings, TopKeywordCount);
  }

  lemma {:induction false} ScoreOfMember(r: seq<Scored>, x: Scored)
    requires DistinctKeywords(r) && x in r
    ensures ScoreOf(r, x.keyword) == x.score
    decreases |r|
  {
    if r[0] != x {
      assert x in r[1..];
      KeywordsMember(r[1..], x);
      ScoreOfMember(r[1..], x);
    }
  }

  lemma {:induction false} KeywordsMember(r: seq<Scored>, x: Scored)
    requires x in r
    ensures x.keyword in Keywords(r)
    decreases |r|
  {
    if r[0] != x {
      assert x in r[1..];
      KeywordsMember(r[1..], x);
    }
  }

  /** While the counters agree, every count `/stats` reports is the keyword's
      `search_count`. */
  lemma StatsCountsAgree(b: Backend)
    requires CountersAgree(b)
    ensures forall e :: e in Stats(b).topKeywords ==> e.count == Count(b.searchCounts, e.keyword)
  {
    forall e | e in Stats(b).topKeywords
      ensures e.count == Count(b.searchCounts, e.keyword)
    {
      ScoreOfMember(b.rankings, Scored(e.keyword, e.count));
    }
  }
}

=== FILE: seqs.dfy ===
/** Order-preserving subsequences, shared by the list filters. */
module Seqs {
  /** No element occurs twice. */
  predicate NoDuplicates<T(==)>(s: seq<T>) {
    forall i, j :: 0 <= i < j < |s| ==> s[i] != s[j]
  }

  /** `a` is an order-preserving subsequence of `b`. */
  ghost predicate IsSubsequence<T>(a: seq<T>, b: seq<T>)
    decreases |b|
  {
    |a| == 0 || (|b| > 0 && ((a[0] == b[0] && IsSubsequence(a[1..], b[1..])) || IsSubsequence(a, b[1..])))
  }

  /** Every sequence is a subsequence of itself. */
  lemma {:induction false} SubsequenceRefl<T>(s: seq<T>)
    ensures IsSubsequence(s, s)
    decreases |s|
  {
    if |s| > 0 {
      SubsequenceRefl(s[1..]);
    }
  }

  /** A subsequence is never longer than the sequence it is taken from. */
  lemma {:induction false} SubsequenceLength<T>(a: seq<T>, b: seq<T>)
    requires IsSubsequence(a, b)
    ensures |a| <= |b|
    decreases |b|
  {
    if |a| > 0 {
      if a[0] == b[0] && IsSubsequence(a[1..], b[1..]) {
        SubsequenceLength(a[1..], b[1..]);
      } else {
        SubsequenceLength(a, b[1..]);
      }
    }
  }
}

=== FILE: text.dfy ===
/** String helpers shared by the front end and the back end.
    Case mapping is ASCII-only and whitespace is Python's `str.isspace` restricted to
    the Latin-1 range; full Unicode rules are not modelled. */
module Text {

  /** Python's `str.isspace` on code points below 256. */
  predicate IsSpace(c: char) {
    c == ' ' || (9 <= c as int <= 13) || (28 <= c as int <= 31) || c as int == 0x85 || c as int == 0xA0
  }

  predicate IsUpper(c: char) {
    'A' <= c <= 'Z'
  }

  predicate IsDigit(c: char) {
    '0' <= c <= '9'
  }

  /** ASCII lowering of one character (`toLowerCase` / `str.lower`). */
  function LowerChar(c: char): (d: char)
    ensures !IsUpper(d)
    ensures IsUpper(c) ==> d as int == c as int + 32
    ensures !IsUpper(c) ==> d == c
  {
    if IsUpper(c) then (c as int + 32) as char else c
  }

  /** ASCII lowering of a string, character by character. */
  function Lower(s: string): (r: string)
    ensures |r| == |s|
    ensures forall i :: 0 <= i < |s| ==> r[i] == LowerChar(s[i])
  {
    seq(|s|, i requires 0 <= i < |s| => LowerChar(s[i]))
  }

  /** Lowering twice is lowering once. */
  lemma LowerIdempotent(s: string)
    ensures Lower(Lower(s)) == Lower(s)
  {
  }

  /** Drops leading whitespace (`str.lstrip()`). */
  function TrimLeft(s: string): (r: string)
    ensures |r| <= |s| && r == s[|s| - |r|..]
    ensures |r| > 0 ==> !IsSpace(r[0])
    ensures forall i :: 0 <= i < |s| - |r| ==> IsSpace(s[i])
    decreases |s|
  {
    if |s| > 0 && IsSpace(s[0]) then TrimLeft(s[1..]) else s
  }

  /** Drops trailing whitespace (`str.rstrip()`). */
  function TrimRight(s: string): (r: string)
    ensures r <= s
    ensures |r| > 0 ==> !IsSpace(r[|r| - 1])
    ensures forall i :: |r| <= i < |s| ==> IsSpace(s[i])
    decreases |s|
  {
    if |s| > 0 && IsSpace(s[|s| - 1]) then TrimRight(s[..|s| - 1]) else s
  }

  /** Trimming both ends leaves an infix of the input with only whitespace before
      and after it. */
  lemma TrimBothOccurs(s: string)
    ensures SpaceAround(s, TrimRight(TrimLeft(s)), |s| - |TrimLeft(s)|)
  {
    var t := TrimLeft(s);
    var r := TrimRight(t);
    var off := |s| - |t|;
    assert t == s[off..];
    assert r <= t;
    PrefixOfSuffixOccurs(s, off, t, r);
    forall j | off + |r| <= j < |s|
      ensures IsSpace(s[j])
    {
      assert s[j] == t[j - off];
    }
  }

  /** A prefix of the suffix starting at `i` occurs at `i`. */
  lemma PrefixOfSuffixOccurs(s: string, i: int, t: string, r: string)
    requires 0 <= i <= |s| && t == s[i..] && r <= t
    ensures OccursAt(s, r, i)
  {
    forall k | 0 <= k < |r|
      ensures s[i..i + |r|][k] == r[k]
    {
      assert r[k] == t[k] == s[i + k];
    }
    assert s[i..i + |r|] == r;
  }

  /** Trimming leaves a string with no whitespace at its ends alone. */
  lemma TrimBothKeeps(s: string)
    requires |s| > 0 && !IsSpace(s[0]) && !IsSpace(s[|s| - 1])
    ensures TrimRight(TrimLeft(s)) == s
  {
    assert TrimLeft(s) == s;
  }

  /** Neither the first nor the last character is whitespace. */
  predicate NoSpaceAtEnds(s: string) {
    |s| == 0 || (!IsSpace(s[0]) && !IsSpace(s[|s| - 1]))
  }

  /** Trimming both ends leaves a string with no whitespace at either end. */
  lemma TrimBothEnds(s: string)
    ensures NoSpaceAtEnds(TrimRight(TrimLeft(s)))
  {
    var t := TrimLeft(s);
    var r := TrimRight(t);
    if |r| > 0 {
      assert r[0] == t[0];
    }
  }

  /** Python's `str.strip()`: the infix left after removing the whitespace at both
      ends. The two contracts together determine the result (`StripUnique`). */
  function Strip(s: string): (r: string)
    ensures exists i :: SpaceAround(s, r, i)
    ensures NoSpaceAtEnds(r)
  {
    TrimBothOccurs(s);
    TrimBothEnds(s);
    TrimRight(TrimLeft(s))
  }

  /** A string with no whitespace at its ends is its own strip. */
  lemma StripKeeps(s: string)
    requires |s| > 0 && !IsSpace(s[0]) && !IsSpace(s[|s| - 1])
    ensures Strip(s) == s
  {
    TrimBothKeeps(s);
  }

  /** `r` occurs in `s` at index `i`, and everything before and after it is
      whitespace. */
  ghost predicate SpaceAround(s: string, r: string, i: int) {
    && OccursAt(s, r, i)
    && (forall j :: 0 <= j < i ==> IsSpace(s[j]))
    && (forall j :: i + |r| <= j < |s| ==> IsSpace(s[j]))
  }

  /** Only one infix of `s` has whitespace all around it and none at its own ends:
      the strip of `s`. */
  lemma StripUnique(s: string, r: string, i: int)
    requires SpaceAround(s, r, i) && NoSpaceAtEnds(r)
    ensures Strip(s) == r
  {
    var q := Strip(s);
    var k :| SpaceAround(s, q, k);
    SameStripped(s, r, i, q, k);
  }

  lemma SameStripped(s: string, r: string, i: int, q: string, k: int)
    requires SpaceAround(s, r, i) && NoSpaceAtEnds(r)
    requires SpaceAround(s, q, k) && NoSpaceAtEnds(q)
    ensures r == q
  {
    if |r| > 0 && |q| > 0 {
      OccursAtIndex(s, r, i, 0);
      OccursAtIndex(s, q, k, 0);
      OccursAtIndex(s, r, i, |r| - 1);
      OccursAtIndex(s, q, k, |q| - 1);
      assert i == k;
      assert |r| == |q|;
    } else if |r| > 0 {
      OccursAtIndex(s, r, i, 0);
    } else if |q| > 0 {
      OccursAtIndex(s, q, k, 0);
    }
  }

  /** `needle` occurs in `hay` starting at index `i`. */
  ghost predicate OccursAt(hay: string, needle: string, i: int) {
    0 <= i && i + |needle| <= |hay| && hay[i..i + |needle|] == needle
  }

  lemma OccursAtIndex(hay: string, needle: string, j: int, i: int)
    requires OccursAt(hay, needle, j) && 0 <= i < |needle|
    ensures needle[i] == hay[j + i]
  {
    assert needle[i] == hay[j..j + |needle|][i];
  }

  /** Substring test (`String.prototype.includes`, Python's `in`). */
  predicate Contains(hay: string, needle: string)
    decreases |hay|
  {
    needle <= hay || (|hay| > 0 && Contains(hay[1..], needle))
  }

  /** `Contains` is exactly "occurs at some index". */
  lemma {:induction false} ContainsIff(hay: string, needle: string)
    ensures Contains(hay, needle) <==> exists i :: OccursAt(hay, needle, i)
    decreases |hay|
  {
    if needle <= hay {
      assert OccursAt(hay, needle, 0);
    } else if |hay| > 0 {
      ContainsIff(hay[1..], needle);
      if Contains(hay[1..], needle) {
        var i :| OccursAt(hay[1..], needle, i);
        assert hay[i + 1..i + 1 + |needle|] == hay[1..][i..i + |needle|];
        assert OccursAt(hay, needle, i + 1);
      } else {
        forall i | 0 <= i
          ensures !OccursAt(hay, needle, i)
        {
          if 0 < i && i + |needle| <= |hay| {
            assert !OccursAt(hay[1..], needle, i - 1);
            assert hay[1..][i - 1..i - 1 + |needle|] == hay[i..i + |needle|];
          } else if i == 0 && |needle| <= |hay| {
            assert hay[..|needle|] != needle;
          }
        }
      }
    }
  }

  /** A substring of a suffix is a substring of the whole. */
  lemma {:induction false} ContainsInSuffix(prefix: string, hay: string, needle: string)
    requires Contains(hay, needle)
    ensures Contains(prefix + hay, needle)
    decreases |prefix|
  {
    if |prefix| > 0 {
      assert (prefix + hay)[1..] == prefix[1..] + hay;
      ContainsInSuffix(prefix[1..], hay, needle);
    } else {
      assert prefix + hay == hay;
    }
  }

  function DigitChar(d: nat): (c: char)
    requires d < 10
    ensures IsDigit(c) && c as int - '0' as int == d
  {
    ('0' as int + d) as char
  }

  /** Decimal rendering of a natural number (Python's `str(int)` / f-string of an int). */
  function NatToString(n: nat): (r: string)
    ensures |r| > 0
    ensures forall i :: 0 <= i < |r| ==> IsDigit(r[i])
    decreases n
  {
    if n < 10 then [DigitChar(n)] else NatToString(n / 10) + [DigitChar(n % 10)]
  }

  /** The number a run of decimal digits denotes (Python's `int(str)`). */
  function DigitsValue(s: string): nat
    requires forall i :: 0 <= i < |s| ==> IsDigit(s[i])
    decreases |s|
  {
    if |s| == 0 then 0
    else
      assert IsDigit(s[|s| - 1]);
      DigitsValue(s[..|s| - 1]) * 10 + (s[|s| - 1] as int - '0' as int)
  }

  /** Reading back a rendered number gives the number. */
  lemma {:induction false} DecimalRoundTrip(n: nat)
    ensures DigitsValue(NatToString(n)) == n
    decreases n
  {
    if n >= 10 {
      var s := NatToString(n);
      assert s[..|s| - 1] == NatToString(n / 10);
      DecimalRoundTrip(n / 10);
    }
  }
}

=== FILE: wrappers.dfy ===
/** Optional values and results shared by every module of the model. */
module Wrappers {

  /** A value that may be absent: JavaScript's `undefined` / `null` and Python's `None`. */
  datatype Option<+T> = None | Some(value: T) {

    /** The wrapped value, or `default` when absent. */
    function GetOr(default: T): T {
      match this
      case Some(v) => v
      case None => default
    }
  }

  /** The outcome of an operation that can raise an error instead of returning. */
  datatype Result<+R, +E> = Success(value: R) | Failure(error: E)
}
